=== FILE: README.md ===
# GrubGift server core in Dafny

This project models the request handlers of the GrubGift server and proves properties about them. The server is an Express/Mongoose backend that stores users, posts, likes, threaded comments, chats and messages. The handlers covered are:

- posts: create, update, delete and the filtered listing;
- likes: like, unlike, `markAsLiked` and the liked-posts listing;
- comments: create, update, delete with the cascading remove hook, and the threaded listing;
- direct messages: read a conversation, send, and list conversations;
- accounts: registration, login and the profile handlers;
- the two token middlewares;
- the shared `paginate` helper.

The database is one immutable value, `Store.Store`. Every handler is a pure function from a store (and the request's fields) to a reply and the store after it. The invariant the design promises is `Store.Consistent`:

- every post's `likeCount` and `commentCount` equal the recounts of the likes and comments that reference it;
- every like and comment references an existing post;
- every reply sits on the same post as its parent.

These handlers have a lemma showing that they keep this invariant: `PutComment`, `DeleteComment`, `UpdateComment`, `CreatePost`, `UpdatePost`, `DeletePost`, `LikePost`, `UnlikePost`, `SendMessage`, `Register` (as written and corrected) and `UpdateUser`. `Comments.PutCommentAsWritten` does not keep it. `Comments.CrossPostReplyLeavesStaleCount` shows a run that breaks it.

The in-process cooldown sets `userPosted` and `usersCommented` are `Cooldown.Gate` values. A gate maps each marked user to the time their removal timer fires. An explicit `Expire(now)` step stands in for `setTimeout`.

Calls into libraries the model cannot see are function-typed parameters:

- bcrypt `hash`/`compare`;
- `jwt.sign`/`jwt.decode`;
- the signature check `jwt.verify` would make;
- `validator.isEmail`;
- the `bad-words` filter's `clean`.

The clock (`now`) is a parameter. So are the ids the database would allocate; each comes with a freshness precondition.

Modules, one per source component:

- `Wrappers`: `Option` and `Result`.
- `Seqs`: first-match search, filter, reverse, limit, ASCII lowercasing, substring search.
- `Paginate`: `util/paginate.js` with `Array.prototype.slice` semantics for any integer page.
- `Models`: the document shapes, schema validators and defaults.
- `Store`: the store, the recounts and the consistency invariant.
- `Cooldown`: the posting and commenting gates.
- `Comments`, `CommentTree`, `Posts`, `Likes`, `Messages`, `Login`, `Users`, `Auth`: one per handler file.

## Model

| member | source | states |
|---|---|---|
| Paginate.Paginate | util/paginate.js:10-12 | A page holds at most `pageSize` elements. For page ≥ 1 it is exactly the run of elements from `(page-1)*size` to `page*size`, clipped to the array. A page past the end is empty. |
| Paginate.RelativeIndex | util/paginate.js:11 | How `slice` reads a bound. A negative bound counts back from the end; the result is always clipped into `[0, len]`. |
| Paginate.PageIsContiguous | util/paginate.js:10-12 | For every integer page number, including zero and negatives, a page is one contiguous run of the input. |
| Paginate.OnItsPage | util/paginate.js:10-12 | Element `m` of the array is on page `m / size + 1`, so every element is on some page. |
| Paginate.PagesArePrefix | util/paginate.js:10-12 | Pages 1..k laid end to end are exactly the first `min(k*size, n)` elements. Nothing is skipped and nothing is repeated. |
| Seqs.FindFirst | controllers/likeControllers.js:21 | `findOne` yields the first match: the returned position matches and no earlier one does. `None` means nothing matches. |
| Seqs.Filter | controllers/postControllers.js:163-170 | `Array.prototype.filter` keeps exactly the elements that satisfy the predicate, in their original order (a subsequence). |
| Seqs.FilterCounts | controllers/postControllers.js:163-170 | Filtering keeps every copy of a kept element and no copy of a dropped one. |
| Seqs.FilterSnoc | controllers/messageController.js:19-22 | Filtering a list with one element appended gives the old result, followed by that element if it passes. So a message appended to a conversation becomes the last of that conversation's messages before the newest-first reversal. |
| Seqs.RemoveAt | controllers/likeControllers.js:59 | Deleting one document removes exactly that position. The elements before it keep their places, and those after it move down by one. |
| Seqs.Reverse | controllers/messageController.js:21 | The newest-first order is the stored order reversed, position by position. |
| Seqs.Take | controllers/messageController.js:22 | `.limit(n)` keeps a prefix of at most `n` elements. It is the whole input when that is short enough. |
| Seqs.JsLength | models/Post.js:14 | A string's JavaScript `length` counts UTF-16 code units, so it is at least its number of characters and at most twice that. |
| Seqs.JsLengthIsSizeIffBmp | models/Post.js:14 | The JavaScript length equals the number of characters exactly when every character lies in the Basic Multilingual Plane. |
| Seqs.JsLengthAstral | models/Post.js:14 | A string of characters outside the Basic Multilingual Plane, such as emoji, has twice as many code units as characters. |
| Seqs.Lower | controllers/postControllers.js:164 | `toLowerCase` keeps the length and maps each character through the ASCII lowercasing. |
| Seqs.LowerIdempotent | controllers/postControllers.js:164 | Lowercasing an already lowercased string changes nothing. |
| Seqs.IncludesAt | controllers/postControllers.js:164 | If the needle occurs at some offset, then `includes` holds. |
| Seqs.IncludesOffset | controllers/postControllers.js:164 | If `includes` holds, the needle occurs at an offset it names. Together with `IncludesAt`, this characterises `includes` exactly. |
| Models.UserValid | models/User.js:4-46 | The user schema's validators. Lengths are JavaScript lengths, in UTF-16 code units. The username has 6 to 30 units and no space. The email is present and passes `isEmail`. The stored password has at least 8 units. The biography has at most 250 units. The role is Moderator, User or Promoter. |
| Models.PostValid | models/Post.js:4-39 | The post schema's validators: the title is non-empty with at most 80 UTF-16 code units, and the content is non-empty with at most 8000. |
| Models.CommentValid | models/Comment.js:26-58 | The comment schema's validators: the content is required. |
| Models.MessageValid | models/Message.js:16-34 | The message schema's validators: the content is required. |
| Models.NewUser | models/User.js:30-43 | A new account gets the defaults: an empty biography, and the role "User" when none is given. |
| Models.NewPost | models/Post.js:21-36 | A new post gets the defaults: zero counters, not edited and not promoted. |
| Models.NewComment | models/Comment.js:52-55 | A new comment is not edited. |
| Models.SavedContent | models/Comment.js:79-85 | The pre-save hook passes non-empty content through the profanity filter and keeps empty content as it is. |
| Models.Authorised | controllers/commentControllers.js:115 | The ownership check as intended: the owner or an admin passes. |
| Models.AuthorisedAsWritten | controllers/commentControllers.js:115 | The ownership check as evaluated: `!==` between an ObjectId and a string is always true, so only admins pass. |
| Models.OwnerRefusedAsWritten | controllers/commentControllers.js:115 | As written, a non-admin owner is refused where the intended check lets them through. For admins the two checks agree. |
| Store.Poster | controllers/likeControllers.js:120 | Populating a poster reference with no field selection yields a user exactly when one with that id exists. That user is the first with the id, and the whole document is returned. |
| Store.PosterIgnoresPassword | controllers/likeControllers.js:120 | Changing one account's password does not change which user a reference populates to. It changes only that user's `password` field in the result. |
| Store.LikesWithout | models/Post.js:41-44 | `PostLike.deleteMany({postId})` keeps exactly the likes of other posts, every copy of each, and drops every like of the post. |
| Store.LikesWithoutIsFilter | models/Post.js:41-44 | The delete is the filter that keeps the likes not on the post, in their stored order. |
| Store.LikeCountRemoveAt | controllers/likeControllers.js:60-61 | Removing one like lowers its own post's recount by one and no other post's. |
| Store.LikeCountWithout | models/Post.js:41-44 | Deleting one post's likes leaves every other post's recount unchanged. |
| Store.CommentCountInsert | controllers/commentControllers.js:38-45 | A comment created under a fresh id raises its own post's recount by one and no other post's. |
| Store.CommentCountRemove | controllers/commentControllers.js:79-81 | Removing comments that are not on a post leaves that post's recount unchanged. |
| Cooldown.TryAcquire | controllers/commentControllers.js:26-36 | The check-and-mark grants the user exactly when they are not marked. A refusal changes nothing. A grant marks the user with a deadline of `now + cooldown`. |
| Cooldown.Expire | controllers/commentControllers.js:34-36 | The removal timers fire: a user stays marked exactly when their deadline is after `now`, and keeps the same deadline. |
| Cooldown.Grants | controllers/postControllers.js:20-26 | A run of attempts and clock ticks yields one grant-or-refusal answer per event. |
| Cooldown.StaysMarked | controllers/postControllers.js:20-26 | While the clock stays before a marked user's deadline, every attempt by that user is refused, whatever else happens. |
| Cooldown.OneGrantPerWindow | controllers/postControllers.js:20-26 | In a chronological run, two granted attempts by the same user are at least a cooldown apart (90000 ms for posts, 25000 ms for comments). |
| Cooldown.ReleasedAfterCooldown | controllers/commentControllers.js:34-36 | Once the clock passes the deadline and the timers fire, the user can act again. |
| Comments.Cascade | models/Comment.js:64-73 | The post-remove hook's repeated `find({parent})`. The result contains the start set, stays within the stored comments, and is closed under replies. |
| Comments.CascadeOnlyDescendants | models/Comment.js:64-73 | Everything the cascade from one comment removes is that comment or one of its descendants. |
| Comments.Subtree | models/Comment.js:64-73 | Removing a comment removes exactly the comment and its descendants, no more and no less. |
| Comments.DescendantsShareThePost | models/Comment.js:64-73 | When every reply sits on its parent's post, a comment's whole subtree is on the comment's own post. |
| Comments.CascadeIgnoresPosts | models/Comment.js:64-73 | The hook follows `parent` links only. A reply on another post is removed along with its parent. |
| Comments.PutCommentAsWritten | controllers/commentControllers.js:18-57 | `putComment` as the source has it. A missing post is refused. So is a marked user, with the gate unchanged. Otherwise the user is marked before creation, and stays marked even when empty content fails validation. On success the comment is stored with its filtered content and `parentId` unchecked, and the post's `commentCount` goes up by one. |
| Comments.PutComment | controllers/commentControllers.js:20-43 | The corrected creation. A `parentId` that is missing or on another post is refused before the gate is consulted. Any other request behaves exactly as written. |
| Comments.InsertCommentKeepsConsistent | controllers/commentControllers.js:38-45 | Storing a fresh comment on an existing post, with its parent on that post, while raising the post's `commentCount` by one keeps every counter exact, every reference attached and every thread within its post. |
| Comments.PutCommentKeepsConsistent | controllers/commentControllers.js:38-47 | The incremented `commentCount` equals the recount, and the new reply's parent is on its post, so the store stays consistent. |
| Comments.DeleteComment | controllers/commentControllers.js:68-91 | A missing comment or a caller who is neither the commenter nor an admin changes nothing. Otherwise exactly the comment's subtree is removed and the comment's own post is recounted. If that post is gone, the error comes after the removal. |
| Comments.DeleteCommentKeepsConsistent | controllers/commentControllers.js:79-82 | In a consistent store the removed subtree lies on the recounted post, so every counter stays exact and no reply is left dangling. |
| Comments.UpdateComment | controllers/commentControllers.js:103-130 | Empty content is refused before any lookup. Then a missing comment or a stranger is refused. The update succeeds exactly when the content is non-empty, the comment exists and the caller owns it or is an admin. On success only the content (through the filter) and `edited` change. |
| Comments.UpdateCommentAsWritten | controllers/commentControllers.js:103-130 | `updateComment` with its ownership check as the source evaluates it. It succeeds exactly when the content is non-empty, the comment exists and the caller is an admin. Any other caller of an existing comment is refused with the store unchanged. For admins it agrees with the corrected handler. |
| Comments.OwnEditRefusedAsWritten | controllers/commentControllers.js:115 | As written, a non-admin editing their own comment is refused. The corrected handler accepts the edit. |
| Comments.UpdateCommentKeepsConsistent | controllers/commentControllers.js:119-121 | Editing a comment changes no recount, so consistency is kept. |
| Comments.CrossPostReplyAccepted | controllers/commentControllers.js:38-43 | As written, a reply on post 2 to a comment on post 1 is stored. |
| Comments.CrossPostReplyRefused | controllers/commentControllers.js:38-43 | The corrected creation refuses that reply. |
| Comments.CrossPostReplyLeavesStaleCount | controllers/commentControllers.js:79-82 | After the as-written cross-post reply, deleting its parent also removes the reply. Post 2 keeps `commentCount == 1` while its recount is 0, so the store is no longer consistent. |
| CommentTree.IndexIds | controllers/commentControllers.js:182-187 | The first loop's table holds exactly the ids of the fetched comments. |
| CommentTree.BuildTree | controllers/commentControllers.js:174-207 | The tree builds without error exactly when every reply's parent was fetched; otherwise it fails with the runtime's TypeError. On success the roots are the parentless comments in fetched order, and each comment's `children` are its replies in fetched order. |
| CommentTree.Occurrences | controllers/commentControllers.js:189-200 | With distinct ids, an id occurs once in the list of comments under a given parent (or among the roots) when its comment hangs there, and not at all otherwise. |
| CommentTree.EachCommentPlacedOnce | controllers/commentControllers.js:189-200 | With distinct ids, each fetched comment appears exactly once: among the roots if it has no parent, otherwise only in its parent's `children`. |
| CommentTree.OrphanFailsTheListing | controllers/commentControllers.js:193-195 | A reply whose parent was not fetched fails the whole listing instead of being dropped. |
| CommentTree.ChainWithoutOrphan | controllers/commentControllers.js:189-200 | For the chain 1 ← 2 ← 3, comment 1 is the only root, 2 hangs under 1 and 3 under 2. |
| CommentTree.WellFormedThreadsBuild | controllers/commentControllers.js:178-195 | When every reply sits on its parent's post, listing any post's comments finds every parent, so the tree always builds. |
| Posts.CreatePost | controllers/postControllers.js:15-38 | Title and content are required before the gate is consulted. A marked user is refused with the gate unchanged. Otherwise the user is marked, and success requires the schema's length limits in UTF-16 code units. The new post has the schema defaults (zero counters, not edited, not promoted). |
| Posts.CreatePostKeepsConsistent | controllers/postControllers.js:27-29 | A new post's zero counters match its recounts, so consistency is kept. |
| Posts.SecondPostRefused | controllers/postControllers.js:20-23 | Right after a successful post, the same user's next post is refused until the timers fire. |
| Posts.WideTitleRefused | models/Post.js:11-15 | A title of 41 emoji (41 characters, 82 code units) is refused with "post validation failed" and nothing stored, while the user stays marked. |
| Posts.UpdatePost | controllers/postControllers.js:47-68 | A missing post or a stranger is refused. On success only the content and `edited` change, and the saved post must pass the schema again. |
| Posts.UpdatePostKeepsConsistent | controllers/postControllers.js:58-60 | Updating a post keeps the store consistent. |
| Posts.DeletePost | controllers/postControllers.js:78-101 | A missing post or a stranger is refused. On success the post is removed, along with exactly its likes (the pre-remove hook) and exactly its comments. The remaining likes are the old ones that are not on the post, in their stored order. Everything else is kept. |
| Posts.WithoutPostCountsExact | models/Post.js:41-44 | Removing a post, its likes and its comments leaves every other post's counters equal to its recounts. |
| Posts.WithoutPostAttached | models/Post.js:41-44 | After that removal, every remaining like and comment references a remaining post. |
| Posts.WithoutPostKeepsConsistent | controllers/postControllers.js:90-91 | That removal keeps a consistent store consistent. |
| Posts.DeletePostKeepsConsistent | controllers/postControllers.js:90-91 | Nothing is left referencing the deleted post, and every other post's counters still match, so consistency is kept. |
| Posts.ShownFromViews | controllers/postControllers.js:162-173 | Every post on a page passes the search and author filters and comes from the listing. |
| Posts.MultiplePosts | controllers/postControllers.js:146-182 | The author filter fails exactly when a searched post's poster is gone. `numberOfPosts` counts all matches, not the page. The page holds at most ten posts. Only the `liked` marks differ from the unmarked page. With a viewer, a post is marked exactly when it was already marked or the viewer likes it. |
| Posts.EveryMatchIsListed | controllers/postControllers.js:162-173 | Every post that passes both filters appears on some page of the listing. |
| Posts.SearchIgnoresCase | controllers/postControllers.js:163-165 | A query and its lowercased form give the same answer. |
| Likes.LikePost | controllers/likeControllers.js:13-40 | A missing post or an existing like is refused and changes nothing. Otherwise exactly one like is appended and the post's `likeCount` becomes the old recount plus one. |
| Likes.UnlikePost | controllers/likeControllers.js:50-74 | A missing post or a missing like is refused. Otherwise the first stored like by that user on that post is removed, and the other likes keep their order. That post's recount (and counter) goes down by one, and every other post's recount stays the same. |
| Likes.LikePostKeepsConsistent | controllers/likeControllers.js:23-28 | Liking keeps the store consistent. |
| Likes.UnlikePostKeepsConsistent | controllers/likeControllers.js:60-62 | Unliking keeps the store consistent. |
| Likes.LikePostKeepsLikesUnique | controllers/likeControllers.js:21-26 | Sequential likes never record the same user liking the same post twice. |
| Likes.UnlikeRemovesTheLike | controllers/likeControllers.js:58-61 | With no duplicate likes, after an unlike the user no longer likes the post. |
| Likes.LikeThenUnlike | controllers/likeControllers.js:13-74 | Liking and then unliking restores a consistent store exactly. |
| Likes.LikeTwiceRefused | controllers/likeControllers.js:21-32 | A second like by the same user fails with "Post is already liked". |
| Likes.MarkAsLiked | controllers/likeControllers.js:83-99 | Only `liked` changes, and a mark is never cleared. For a user, a post ends up marked exactly when it was already marked or that user likes it. With no user, a post is marked exactly when its like recount is positive. |
| Likes.LikedIffCounted | controllers/likeControllers.js:89-97 | A post has some like exactly when its like recount is positive. |
| Likes.MarkAsLikedIdempotent | controllers/likeControllers.js:83-99 | Marking twice marks nothing more. |
| Likes.LikedPostsAsWritten | controllers/likeControllers.js:109-140 | The listing is page `page` (default 1) of the liker's likes, newest first. Each entry is populated exactly when its post exists, and `numberOfPosts` is the page's length. An entry's poster is the whole stored account of the post's poster, password hash included. With a viewer, the listing fails exactly when the viewer has a like and some page entry's post is gone. Each present entry is marked as liked exactly when the viewer likes that post. |
| Likes.PasswordHashListedAsWritten | controllers/likeControllers.js:118-121 | As written, a liked post whose poster has the stored hash `"hash"` is listed with a poster whose `password` is `"hash"`. |
| Likes.LikedPosts | controllers/likeControllers.js:118-121 | The corrected listing populates the poster as `"-password"`, as `getMultiplePosts` does. It fails exactly when the listing as written fails, with the same message. Otherwise it has the same length and count, and the same present entries with the same ids, posts and marks. Each poster is the as-written poster without its password. |
| Likes.LikedPostsHidesPassword | controllers/likeControllers.js:118-121 | Changing any account's password leaves the corrected listing exactly as it was. |
| Likes.MineMarksLikes | controllers/likeControllers.js:85-97 | Among the likes loaded for a user, one is on a post exactly when that user likes the post. |
| Likes.OwnLikedPostsAllMarked | controllers/likeControllers.js:118-132 | When every like references an existing post, a user viewing their own liked posts gets no error, and every entry is present and marked as liked. |
| Messages.GetMessages | controllers/messageController.js:13-33 | An unknown chat fails with "Chat does not exists". Otherwise the result is the conversation's newest `min(12, n)` messages, newest first, all from that conversation. |
| Messages.ChatBetween | controllers/messageController.js:52-56 | `$all` finds the first chat whose recipients include both users, or reports that none does. |
| Messages.SendMessage | controllers/messageController.js:44-76 | An unknown recipient changes nothing. Otherwise the first chat listing both users is reused, or exactly one chat `[userId, recipientId]` is opened. Exactly one message is added, and the chat's `lastMessageAt` and `updatedAt` are both stamped with the send time. Empty content fails validation but leaves a newly opened chat behind, unstamped. |
| Messages.SendMessageKeepsConsistent | controllers/messageController.js:44-76 | Sending a message touches only chats and messages, so it keeps the store consistent. |
| Messages.SentMessageComesFirst | controllers/messageController.js:19-22 | The message just sent is the first one its conversation shows. |
| Messages.SecondMessageReusesChat | controllers/messageController.js:52-62 | After a successful send, the next send between the same users opens no new chat. |
| Messages.OtherParty | controllers/messageController.js:99-106 | The other party is the last of the first two members that differs from the caller. There is none only when both are the caller. |
| Messages.SelfShownAsWritten | controllers/messageController.js:99-106 | As written, a caller who is the second member of a conversation sees themselves as the other party. The intended check shows the first member. |
| Messages.GetChats | controllers/messageController.js:87-111 | Exactly the caller's chats are listed, as `NewestFirst` orders them: most recently saved (`updatedAt`) first. Each comes with its populated members and the other party. A chat with fewer than two existing members fails the whole listing, whatever the order. |
| Messages.NewestFirst | controllers/messageController.js:96 | `.sort("-updatedAt")`: a permutation of the conversations found, with `updatedAt` never increasing along the list. |
| Messages.NewestFirstSnoc | controllers/messageController.js:96 | A conversation saved after all the others heads the sorted list, and the rest keep their sorted order. |
| Messages.ShortAnyOrder | controllers/messageController.js:98-105 | Whether some conversation fails the listing does not depend on the order the conversations come in. |
| Messages.Views | controllers/messageController.js:95-105 | One view per conversation, in order, each with its populated members and the other party among them. |
| Messages.ViewsCons | controllers/messageController.js:98-105 | Putting a conversation with two populated members in front adds its view in front of the others. |
| Messages.BothMembers | controllers/messageController.js:95 | Populating two existing users yields both, in order. |
| Messages.ShortSnoc | controllers/messageController.js:98-105 | Appending a conversation with at least two existing members does not change whether the listing fails. |
| Messages.NewChatListsRecipient | controllers/messageController.js:52-67 | Suppose two distinct existing users exchange a first message, and the sender's other chats were all last saved before now. Then the new chat is appended to the sender's stored chats, stamped with now. `getChats` fails afterwards exactly when it failed before. On success the new chat heads the listing, ahead of the old listing, with both users as members and the recipient as the other party. |
| Messages.SelfMessageJoinsExistingChat | controllers/messageController.js:52-56 | A message to oneself goes into the first chat one is part of, because `$all` with a repeated id only asks for that id. |
| Auth.WithIdentity | middleware/auth.js:24-26 | The merged body takes `userId` and `isAdmin` from the payload and keeps every other field. |
| Auth.VerifyTokenAsWritten | middleware/auth.js:14-32 | `verifyToken` as written. A missing token fails with "No token provided". A token that does not parse fails with the destructuring TypeError. Any parsable token is accepted, signed or not. |
| Auth.VerifyToken | middleware/auth.js:14-32 | The corrected middleware refuses a token whose signature does not verify. It accepts only signed tokens, and on those it agrees with the code as written. |
| Auth.ClientCannotClaimIdentity | middleware/auth.js:22-26 | Whatever identity the client writes into the body, the verified body carries the token's `userId` and `isAdmin`. |
| Auth.OptionallyVerifyToken | middleware/auth.js:45-60 | Never an error. Without a usable token the body passes through unchanged. With a parsable token only `userId` is set. |
| Auth.ForgedTokenAccepted | middleware/auth.js:22 | As written, a token the server never signed grants admin rights. The corrected middleware refuses it. |
| Login.BuildToken | controllers/loginControllers.js:24-28 | The payload has exactly `userId` and `isAdmin`, taken from the account. |
| Login.RegisterAsWritten | controllers/loginControllers.js:38-71 | Username, email and password are required. A taken lowercased email or username is refused and nothing is created. Otherwise the account stores the lowercased email and the hash (never the plaintext), with an empty biography and the given role, or "User" when none is given. `isAdmin` is true exactly when the role is Moderator. The schema validates the stored values. The token is signed over the account's payload issued at the registration time. |
| Login.Register | models/User.js:24-28 | The corrected registration applies the 8-unit rule to the password the user chose. Any password that meets it is treated exactly as written. |
| Login.Issued | controllers/loginControllers.js:60 | `jwt.sign` signs the payload with `iat` added, the issue time in whole seconds. Every other field is kept. |
| Login.GetUserDict | controllers/loginControllers.js:12-16 | The reply to a login or registration holds the token, the username, the id and the admin flag of the account. |
| Login.RegisterKeepsConsistent | controllers/loginControllers.js:38-71 | Registering touches only the users, so it keeps the store consistent, both as written and corrected. |
| Login.RegisterKeepsUsersUnique | models/User.js:6-20 | Registration never makes two accounts share a username or an email. |
| Login.Login | controllers/loginControllers.js:81-105 | Email and password are required. Login succeeds exactly when the first account with the lowercased email has a matching password. The reply is built from that first account, with a token issued at the login time. Every other failure is "Email or password incorrect". |
| Login.LoginHidesWhichCheckFailed | controllers/loginControllers.js:88-98 | An unknown email and a wrong password get the same answer. |
| Login.RegisterThenLogin | controllers/loginControllers.js:43-92 | After registering, logging in with the same password and any email that lowercases to the same string succeeds for the new account. The reply has the registration's username, id and admin flag, and its token is the account's payload issued at the login time. Within the same second as the registration the two replies are equal. |
| Login.LoginTokenIdentifiesUser | controllers/loginControllers.js:91-92 | A login token, presented to the verifying middleware, puts the account's own id and admin flag into the body. This holds whenever the decoder returns those two fields of the signed payload, whatever else (`iat`) it holds. |
| Login.ShortPasswordAccepted | models/User.js:24-28 | As written, a one-character password is accepted because the rule sees its 60-character hash. The corrected registration refuses it. |
| Users.GetUser | controllers/userControllers.js:3-17 | An unknown username fails with "User does not exist". Otherwise the first user with that name is returned without the password. |
| Users.GetUserHidesPassword | controllers/userControllers.js:6 | Accounts that differ only in their password look the same to `getUser`. |
| Users.GetUserFindsUnique | controllers/userControllers.js:3-17 | With unique usernames, looking up an account's username returns exactly that account, without its password. |
| Users.UpdateUser | controllers/userControllers.js:19-36 | An unknown caller fails with "User does not exist". A string biography replaces the old one; without one the user is saved unchanged. Nothing else changes, and the save must pass the schema. The update succeeds exactly when the caller's account exists and the first such account, with the new biography, passes the schema. |
| Users.UpdateUserKeepsConsistent | controllers/userControllers.js:19-36 | A profile update touches only the users, so it keeps the store consistent. |
| Users.LongBiographyRefused | models/User.js:30-34 | A biography over 250 UTF-16 code units is refused and changes nothing. |
| Users.UpdateUserKeepsUsersUnique | controllers/userControllers.js:24-27 | Updating a biography keeps usernames and emails unique. |
| Users.UpdateThenGet | controllers/userControllers.js:19-36 | After a biography update, looking the user up shows the new biography. |

## Left out

- HTTP wiring. The routes, the status codes, the shape of `res.json`, and which middleware guards which route are not modelled. Handlers take the body fields (`userId`, `isAdmin`) the middleware would have merged in.
- Database ordering. Where the default `-createdAt` order matters (messages, liked posts), it is the insertion order reversed. The `-updatedAt` order of `getChats` is modelled by `Messages.NewestFirst`, where conversations saved at the same time keep their stored order; the database leaves that order unspecified. Caller-supplied `sortBy` values are not modelled.
- Messages.SendMessage: the conversation's `updatedAt` is set to the send time on every successful send. That is the time `lastMessageAt` records, and the save changes it. The store holds one clock value per conversation, so a conversation's creation time and its first save are the same `now`.
- Messages.NewChatListsRecipient: requires the sender's other conversations to have been saved before now, which a monotonic clock provides. With equal timestamps the new conversation's place among them is not stated.
- Posts.MultiplePosts: takes the populated, sorted result of `Post.find()` as a parameter (`views`) instead of computing it from the store.
- Concurrency and interleavings are not modelled: two requests racing past a `findOne`, the un-awaited `chat.save()`, and the async post-remove hook. Every handler runs to completion and the hook finishes before the recount.
- Real timers. `setTimeout` is replaced by the explicit `Cooldown.Expire` step.
- Foreign libraries are parameters with no behaviour of their own: bcrypt, `jwt.sign`/`jwt.decode`/signature checking, `validator.isEmail`, the `bad-words` filter, Mongoose `populate` (as user lookup), and ObjectId generation.
- `getSinglePost` and `mongoose.Types.ObjectId.isValid`: the single-post read is `Likes.MarkAsLiked` over one post and is not modelled separately.
- `getCommentsOfUser`: a single query whose computed page is never used.
- Malformed ids. Ids are numbers, so every id is well-formed. The `CastError` Mongoose raises for a string that is not an ObjectId is not modelled. A malformed `req.params.id` fails with "Cast to ObjectId failed …", not with the not-found message (for example messageController.js:16 and 49, commentControllers.js:23). A malformed `parentId` makes `Comment.create` fail (commentControllers.js:38-43) after the commenter was already marked (commentControllers.js:31).
- Token encoding. The token is `sign` applied to the payload with its `iat` (`Login.Issued`). The clock is the `now` parameter. The JWT header, the base64 encoding and the decoder are not modelled.
- Seqs.Lower: lowercases ASCII letters only. Unicode case mapping is not modelled.
- Paginate.Paginate: models `slice` for any integer page, including zero and negatives. A non-numeric query-string page, which JavaScript turns into `NaN`, is not modelled.
- Validation failures are reported by the leading words of Mongoose's message ("post validation failed" and so on), not the full per-field text.
- CommentTree.BuildTree: follows the code. A reply whose parent was not fetched fails the listing with a TypeError; it is not dropped silently. `Comments.Cascade` and `CommentTree` model the stored `children` array as always empty, as the handlers never store it.
- Likes.LikedPostsAsWritten and Messages.GetChats: reduce a populated reference to the referenced record, or nothing when it is gone. Mongoose drops missing array members when populating `recipients`. The liked-post listing returns the poster's whole account; `getMultiplePosts`, `getChats` and `getUser` return it without the password (`Models.PublicUser`).
- Auth.OptionallyVerifyToken: a request without a token keeps any `userId` the client put in the body. The listings that use this middleware then mark likes for that claimed user. The model shows this behaviour but does not change it.

## Findings

| source | as written | input that shows it | evidently intended | confidence | as-written member | corrected member |
|---|---|---|---|---|---|---|
| controllers/commentControllers.js:38-43 | `putComment` stores `parentId` without checking it | a reply on post 2 whose `parentId` is a comment on post 1, then deleting that comment | a reply's parent is a comment on the same post | high; not executed | Comments.PutCommentAsWritten (Comments.CrossPostReplyLeavesStaleCount) | Comments.PutComment (Comments.PutCommentKeepsConsistent) |
| middleware/auth.js:22 | `jwt.decode` parses the payload without checking the signature | any well-formed token the server did not sign, with payload `{userId: 1, isAdmin: true}` | only tokens signed with the server key are accepted, as the middleware's comment says | high; not executed | Auth.VerifyTokenAsWritten (Auth.ForgedTokenAccepted) | Auth.VerifyToken (Auth.ClientCannotClaimIdentity) |
| controllers/commentControllers.js:115 | `comment.commenter !== userId` compares an ObjectId with the token's string id, so it is always true and only admins pass. The same check appears at commentControllers.js:75 and postControllers.js:55 and 87. At messageController.js:102 the same comparison makes `getChats` always show `recipients[1]`. | a non-admin editing their own comment | the owner or an admin may edit | high; not executed | Models.AuthorisedAsWritten (Comments.UpdateCommentAsWritten, Comments.OwnEditRefusedAsWritten, Messages.SelfShownAsWritten) | Models.Authorised (Comments.UpdateComment, Messages.OtherParty) |
| controllers/likeControllers.js:118-121 | the nested populate of `postId` and then `poster` selects no fields, so each liked post's poster comes with its stored password hash | any liked post whose poster still exists, e.g. a poster whose stored hash is `"hash"` | the poster is populated as `"-password"`, as `getMultiplePosts` does at postControllers.js:158 | high; not executed | Likes.LikedPostsAsWritten (Likes.PasswordHashListedAsWritten) | Likes.LikedPosts (Likes.LikedPostsHidesPassword) |
| models/User.js:24-28 | the 8-character rule on `password` is checked on the stored bcrypt hash (60 characters) | registering with password `"x"` | the chosen password must be at least 8 characters long | high; not executed | Login.RegisterAsWritten (Login.ShortPasswordAccepted) | Login.Register (Login.RegisterKeepsUsersUnique) |

In the first row, deleting the parent also removes the reply on post 2, but only post 1 is recounted. Post 2 keeps `commentCount == 1` with no comments. While the reply exists, the comment listing of post 2 fails too, because the reply's parent is not among that post's comments. The corrected `Comments.PutComment` keeps `Store.Consistent`.

=== FILE: auth.dfy ===
/** The two token middlewares that merge the caller's identity into the
    request body before a handler runs. */
module Auth {
  import opened Wrappers

  /** The JSON values a request body or token payload field can hold. */
  datatype Json = Undefined | Null | Bool(b: bool) | Num(n: int) | Str(s: string) | Id(id: nat)

  /** A parsed request body or token payload. */
  type Body = map<string, Json>

  const NoToken: string := "No token provided"
  /** The runtime's TypeError when the payload of an unparsable token (`null`)
      is destructured. */
  const NullPayload: string := "Cannot destructure property 'userId' of 'jwt.decode(...)' as it is null."
  /** The message the signature-checking decoder gives a token the server did not sign. */
  const BadSignature: string := "invalid signature"

  /** Reading a field of an object: absent fields read as `undefined`. */
  function Field(m: Body, k: string): Json
  {
    if k in m then m[k] else Undefined
  }

  /** `{...body, userId, isAdmin}` with both read from `payload`. */
  function WithIdentity(body: Body, payload: Body): (r: Body)
    ensures r.Keys == body.Keys + {"userId", "isAdmin"}
    ensures r["userId"] == Field(payload, "userId") && r["isAdmin"] == Field(payload, "isAdmin")
    ensures forall k :: k in body && k != "userId" && k != "isAdmin" ==> r[k] == body[k]
  {
    body["userId" := Field(payload, "userId")]["isAdmin" := Field(payload, "isAdmin")]
  }

  /** `verifyToken` as written. `decode` parses a token's payload (`None`
      for a token that does not parse) and checks no signature, so any
      well-formed token is accepted. */
  function VerifyTokenAsWritten(body: Body, token: Option<string>, decode: string -> Option<Body>): (r: Result<Body>)
    ensures token.None? || token == Some("") ==> r == Err(NoToken)
    ensures r.Ok? <==> token.Some? && token.value != "" && decode(token.value).Some?
    ensures r.Ok? ==> r.value == WithIdentity(body, decode(token.value).value)
    ensures r.Err? && token.Some? && token.value != "" ==> r.msg == NullPayload
  {
    if token.None? || token.value == "" then Err(NoToken)
    else match decode(token.value)
      case None => Err(NullPayload)
      case Some(payload) => Ok(WithIdentity(body, payload))
  }

  /** `verifyToken` with the check the middleware's purpose calls for: a
      token whose signature does not verify against the server key
      (`signed` is false) is refused before its payload is trusted. */
  function VerifyToken(body: Body, token: Option<string>, decode: string -> Option<Body>,
                       signed: string -> bool): (r: Result<Body>)
    ensures token.None? || token == Some("") ==> r == Err(NoToken)
    ensures token.Some? && token.value != "" && !signed(token.value) ==> r == Err(BadSignature)
    ensures r.Ok? ==> signed(token.value) && r == VerifyTokenAsWritten(body, token, decode)
    ensures token.Some? && signed(token.value) ==> r == VerifyTokenAsWritten(body, token, decode)
  {
    if token.Some? && token.value != "" && !signed(token.value) then Err(BadSignature)
    else VerifyTokenAsWritten(body, token, decode)
  }

  /** Whatever identity the client writes into the body, the verified body
      carries the token's. */
  lemma ClientCannotClaimIdentity(body1: Body, body2: Body, token: Option<string>,
                                  decode: string -> Option<Body>, signed: string -> bool)
    requires VerifyToken(body1, token, decode, signed).Ok?
    ensures VerifyToken(body2, token, decode, signed).Ok?
    ensures var r1 := VerifyToken(body1, token, decode, signed).value;
            var r2 := VerifyToken(body2, token, decode, signed).value;
            r1["userId"] == r2["userId"] && r1["isAdmin"] == r2["isAdmin"]
  {
  }

  /** `optionallyVerifyToken`: never an error. With a parsable token only
      `userId` is set; without one, or when reading the payload throws, the
      body passes through untouched. */
  function OptionallyVerifyToken(body: Body, token: Option<string>, decode: string -> Option<Body>): (r: Body)
    ensures token.None? || token == Some("") ==> r == body
    ensures forall k :: k in body && k != "userId" ==> k in r && r[k] == body[k]
    ensures r.Keys <= body.Keys + {"userId"}
    ensures token.Some? && token.value != "" && decode(token.value).Some? ==>
      r == body["userId" := Field(decode(token.value).value, "userId")]
    ensures token.Some? && token.value != "" && decode(token.value).None? ==> r == body
  {
    if token.None? || token.value == "" then body
    else match decode(token.value)
      case None => body
      case Some(payload) => body["userId" := Field(payload, "userId")]
  }

  // ---------------------------------------------------------------------
  // The unchecked signature, exhibited.
  // ---------------------------------------------------------------------

  /** A payload anyone can write: user 1, administrator. */
  const ForgedPayload: Body := map["userId" := Id(1), "isAdmin" := Bool(true)]

  /** A decoder that parses every token to the forged payload, and a key
      check that no token passes: the server signed nothing. */
  function ParsesToForged(t: string): Option<Body> { Some(ForgedPayload) }
  function SignedByNobody(t: string): bool { false }

  /** As written, a token the server never signed grants administrator
      rights; with the signature check it is refused. */
  lemma ForgedTokenAccepted()
    ensures VerifyTokenAsWritten(map[], Some("forged"), ParsesToForged).Ok?
    ensures VerifyTokenAsWritten(map[], Some("forged"), ParsesToForged).value["isAdmin"] == Bool(true)
    ensures VerifyToken(map[], Some("forged"), ParsesToForged, SignedByNobody) == Err(BadSignature)
  {
  }
}

=== FILE: comment_tree.dfy ===
/** The parent/child view `getCommentsOfPost` builds over the comments it
    fetched for one post. */
module CommentTree {
  import opened Wrappers
  import opened Models
  import opened Store

  /** A fetched comment, reduced to the fields the builder reads. */
  datatype Doc = Doc(id: CommentId, parent: Option<CommentId>)

  /** The builder's output: the root comments in order, and for every
      fetched comment the replies appended to its `children`, in order. */
  datatype Forest = Forest(roots: seq<CommentId>, children: map<CommentId, seq<CommentId>>)

  /** The runtime's TypeError when a reply's parent was not fetched: the
      lookup yields `undefined` and its `children` is read. */
  const OrphanError: string := "Cannot read properties of undefined (reading 'children')"

  function Ids(cs: seq<Doc>): set<CommentId>
  {
    set k | 0 <= k < |cs| :: cs[k].id
  }

  /** Every reply's parent is among the fetched comments. */
  ghost predicate ParentsFetched(cs: seq<Doc>, ids: set<CommentId>)
  {
    forall k :: 0 <= k < |cs| && cs[k].parent.Some? ==> cs[k].parent.value in ids
  }

  ghost predicate DistinctIds(cs: seq<Doc>)
  {
    forall j, k :: 0 <= j < k < |cs| ==> cs[j].id != cs[k].id
  }

  /** Reference definition: ids of the comments whose parent is `at`, in input order. */
  function IdsUnder(cs: seq<Doc>, at: Option<CommentId>): seq<CommentId>
  {
    if |cs| == 0 then []
    else IdsUnder(cs[..|cs| - 1], at) + (if cs[|cs| - 1].parent == at then [cs[|cs| - 1].id] else [])
  }

  /** The root comments' ids, in input order. */
  function RootIds(cs: seq<Doc>): seq<CommentId>
  {
    IdsUnder(cs, None)
  }

  /** The ids of the replies to `p`, in input order. */
  function ReplyIds(cs: seq<Doc>, p: CommentId): seq<CommentId>
  {
    IdsUnder(cs, Some(p))
  }

  lemma IdsSnoc(cs: seq<Doc>, i: nat)
    requires i < |cs|
    ensures Ids(cs[..i + 1]) == Ids(cs[..i]) + {cs[i].id}
  {
    forall x | x in Ids(cs[..i + 1]) ensures x in Ids(cs[..i]) + {cs[i].id} {
      var k :| 0 <= k < i + 1 && cs[..i + 1][k].id == x;
      if k < i { assert cs[..i][k].id == x; }
    }
    forall x | x in Ids(cs[..i]) ensures x in Ids(cs[..i + 1]) {
      var k :| 0 <= k < i && cs[..i][k].id == x;
      assert cs[..i + 1][k].id == x;
    }
  }

  /** The first loop: the id-keyed lookup table. */
  method IndexIds(cs: seq<Doc>) returns (index: set<CommentId>)
    ensures index == Ids(cs)
  {
    index := {};
    var i := 0;
    while i < |cs|
      invariant 0 <= i <= |cs|
      invariant index == Ids(cs[..i])
    {
      IdsSnoc(cs, i);
      index := index + {cs[i].id};
      i := i + 1;
    }
    assert cs[..|cs|] == cs;
  }

  lemma PlacedSnoc(cs: seq<Doc>, i: nat, index: set<CommentId>)
    requires i < |cs|
    requires ParentsFetched(cs[..i], index)
    requires cs[i].parent.Some? ==> cs[i].parent.value in index
    ensures ParentsFetched(cs[..i + 1], index)
    ensures cs[..i + 1][..i] == cs[..i] && cs[..i + 1][i] == cs[i]
  {
    assert cs[..i + 1][..i] == cs[..i];
    var s := cs[..i + 1];
    forall k | 0 <= k < |s| && s[k].parent.Some?
      ensures s[k].parent.value in index
    {
      if k < i { assert s[k] == cs[..i][k]; }
    }
  }

  /** The two loops of `getCommentsOfPost`: index the comments by id, then
      append each comment to the roots or to its parent's `children`. An
      unresolvable parent fails the whole call; no partial tree is returned. */
  method BuildTree(cs: seq<Doc>) returns (r: Result<Forest>)
    ensures r.Ok? <==> ParentsFetched(cs, Ids(cs))
    ensures r.Err? ==> r.msg == OrphanError
    ensures r.Ok? ==> r.value.roots == RootIds(cs)
    ensures r.Ok? ==> r.value.children.Keys == Ids(cs)
    ensures r.Ok? ==> forall id :: id in Ids(cs) ==> r.value.children[id] == ReplyIds(cs, id)
  {
    var index := IndexIds(cs);
    var roots: seq<CommentId> := [];
    var children: map<CommentId, seq<CommentId>> := map id | id in index :: [];
    var i := 0;
    while i < |cs|
      invariant 0 <= i <= |cs|
      invariant roots == RootIds(cs[..i])
      invariant children.Keys == index
      invariant forall id :: id in index ==> children[id] == ReplyIds(cs[..i], id)
      invariant ParentsFetched(cs[..i], index)
    {
      var c := cs[i];
      if c.parent.Some? && c.parent.value !in index {
        return Err(OrphanError);
      }
      PlacedSnoc(cs, i, index);
      if c.parent.Some? {
        children := children[c.parent.value := children[c.parent.value] + [c.id]];
      } else {
        roots := roots + [c.id];
      }
      i := i + 1;
    }
    assert cs[..|cs|] == cs;
    return Ok(Forest(roots, children));
  }

  /** Some fetched comment has id `x` and parent `at`. */
  ghost predicate PlacedUnder(cs: seq<Doc>, x: CommentId, at: Option<CommentId>)
  {
    exists k :: 0 <= k < |cs| && cs[k].id == x && cs[k].parent == at
  }

  lemma DistinctFront(cs: seq<Doc>)
    requires |cs| > 0 && DistinctIds(cs)
    ensures DistinctIds(cs[..|cs| - 1])
  {
    var front := cs[..|cs| - 1];
    forall j, k | 0 <= j < k < |front| ensures front[j].id != front[k].id {
      assert front[j] == cs[j] && front[k] == cs[k];
    }
  }

  lemma PlacedUnderSnoc(cs: seq<Doc>, x: CommentId, at: Option<CommentId>)
    requires |cs| > 0 && DistinctIds(cs)
    ensures PlacedUnder(cs, x, at) <==>
            PlacedUnder(cs[..|cs| - 1], x, at) || (cs[|cs| - 1].id == x && cs[|cs| - 1].parent == at)
    ensures PlacedUnder(cs[..|cs| - 1], x, at) ==> cs[|cs| - 1].id != x
  {
    var front := cs[..|cs| - 1];
    if PlacedUnder(front, x, at) {
      var k :| 0 <= k < |front| && front[k].id == x && front[k].parent == at;
      assert cs[k] == front[k];
    }
    if PlacedUnder(cs, x, at) {
      var k :| 0 <= k < |cs| && cs[k].id == x && cs[k].parent == at;
      if k < |cs| - 1 { assert front[k] == cs[k]; }
    }
  }

  /** With distinct ids, an id occurs in the list for `at` once if its
      comment hangs under `at`, and not at all otherwise. */
  lemma {:induction false} Occurrences(cs: seq<Doc>, at: Option<CommentId>, x: CommentId)
    requires DistinctIds(cs)
    ensures multiset(IdsUnder(cs, at))[x] == if PlacedUnder(cs, x, at) then 1 else 0
  {
    if |cs| > 0 {
      var front := cs[..|cs| - 1];
      DistinctFront(cs);
      Occurrences(front, at, x);
      PlacedUnderSnoc(cs, x, at);
    }
  }

  /** With distinct ids, every fetched comment appears exactly once in the
      forest: among the roots when it has no parent, otherwise in its
      parent's `children` and in no other list. */
  lemma EachCommentPlacedOnce(cs: seq<Doc>, k: nat)
    requires DistinctIds(cs) && k < |cs|
    ensures cs[k].parent.None? ==>
      multiset(RootIds(cs))[cs[k].id] == 1 &&
      forall p :: multiset(ReplyIds(cs, p))[cs[k].id] == 0
    ensures cs[k].parent.Some? ==>
      multiset(RootIds(cs))[cs[k].id] == 0 &&
      multiset(ReplyIds(cs, cs[k].parent.value))[cs[k].id] == 1 &&
      forall q :: q != cs[k].parent.value ==> multiset(ReplyIds(cs, q))[cs[k].id] == 0
  {
    var x := cs[k].id;
    forall at: Option<CommentId> ensures multiset(IdsUnder(cs, at))[x] == (if cs[k].parent == at then 1 else 0) {
      Occurrences(cs, at, x);
      if PlacedUnder(cs, x, at) {
        var j :| 0 <= j < |cs| && cs[j].id == x && cs[j].parent == at;
        assert j == k;
      }
    }
  }

  /** Four comments, the last a reply to a comment that was not fetched. */
  const WithOrphan: seq<Doc> := [Doc(1, None), Doc(2, Some(1)), Doc(3, Some(2)), Doc(4, Some(99))]

  /** The orphan fails the whole listing instead of being dropped. */
  lemma OrphanFailsTheListing()
    ensures !ParentsFetched(WithOrphan, Ids(WithOrphan))
  {
    assert WithOrphan[3].parent == Some(99);
    assert 99 !in Ids(WithOrphan);
  }

  /** Without the orphan, comment 1 is the one root, 2 hangs under 1 and 3 under 2. */
  lemma ChainWithoutOrphan()
    ensures ParentsFetched(WithOrphan[..3], Ids(WithOrphan[..3]))
    ensures RootIds(WithOrphan[..3]) == [1]
    ensures ReplyIds(WithOrphan[..3], 1) == [2]
    ensures ReplyIds(WithOrphan[..3], 2) == [3]
    ensures ReplyIds(WithOrphan[..3], 3) == []
  {
    var a := [Doc(1, None)];
    var b := a + [Doc(2, Some(1))];
    var c := b + [Doc(3, Some(2))];
    assert WithOrphan[..3] == c;
    assert c[..2] == b && b[..1] == a && a[..0] == [];
    assert RootIds(a) == [1] && RootIds(b) == [1] && RootIds(c) == [1];
    assert ReplyIds(a, 1) == [] && ReplyIds(b, 1) == [2] && ReplyIds(c, 1) == [2];
    assert ReplyIds(a, 2) == [] && ReplyIds(b, 2) == [] && ReplyIds(c, 2) == [3];
    assert ReplyIds(a, 3) == [] && ReplyIds(b, 3) == [] && ReplyIds(c, 3) == [];
    assert 1 in Ids(c) by { assert c[0].id == 1; }
    assert 2 in Ids(c) by { assert c[1].id == 2; }
  }

  /** `docs` is what `Comment.find({post: p})` returns, in some order:
      every comment on `p`, each once, and nothing else. */
  ghost predicate ListsPost(cs: map<CommentId, Comment>, p: PostId, docs: seq<Doc>)
  {
    && (forall k :: 0 <= k < |docs| ==>
          docs[k].id in cs && cs[docs[k].id].post == p && docs[k].parent == cs[docs[k].id].parent)
    && (forall c :: c in CommentsOn(cs, p) ==> c in Ids(docs))
  }

  /** When every reply sits on its parent's post, listing any post's
      comments finds every parent, so the tree is built without error. */
  lemma WellFormedThreadsBuild(cs: map<CommentId, Comment>, p: PostId, docs: seq<Doc>)
    requires ThreadsWellFormed(cs)
    requires ListsPost(cs, p, docs)
    ensures ParentsFetched(docs, Ids(docs))
  {
    forall k | 0 <= k < |docs| && docs[k].parent.Some?
      ensures docs[k].parent.value in Ids(docs)
    {
      var q := docs[k].parent.value;
      assert q in CommentsOn(cs, p);
    }
  }
}

=== FILE: comments.dfy ===
/** The comment handlers (create, update, delete) and the comment model's
    cascading-delete hook. */
module Comments {
  import opened Wrappers
  import opened Models
  import opened Store
  import opened Cooldown

  const PostMissing: string := "Post does not exists. Cannot make the comment"
  const CommentCooldownActive: string := "Cannot comment again. Please wait for some time"
  const CommentMissing: string := "Comment not present"
  const DeleteDenied: string := "Permission denied for deleting the comment"
  const UpdateNeedsContent: string := "Updating a comment requires more input"
  const UpdateMissing: string := "Comment does not exist"
  const UpdateDenied: string := "Permission denied for updating the comment"
  /** The runtime's TypeError when the recount reads the id of a post that is gone. */
  const NullPostRead: string := "Cannot read properties of null (reading '_id')"
  /** The corrected creation's answer to a parent that is not on the post. */
  const ParentElsewhere: string := "Parent comment does not belong to this post"

  // ---------------------------------------------------------------------
  // The post-remove hook: removing a comment removes its replies, which
  // removes their replies in turn.
  // ---------------------------------------------------------------------

  /** One round of `find({parent: id})` for every id in `acc`. */
  function Replies(cs: map<CommentId, Comment>, acc: set<CommentId>): set<CommentId>
  {
    set c | c in cs && cs[c].parent.Some? && cs[c].parent.value in acc
  }

  /** No comment outside `s` is a reply to a comment inside `s`. */
  ghost predicate ClosedUnderReplies(cs: map<CommentId, Comment>, s: set<CommentId>)
  {
    forall c :: c in cs && cs[c].parent.Some? && cs[c].parent.value in s ==> c in s
  }

  /** Adds replies to `acc` until no reply is left outside it. The lookup
      follows `parent` links only; it never looks at a comment's post. */
  function Cascade(cs: map<CommentId, Comment>, acc: set<CommentId>): (r: set<CommentId>)
    ensures acc <= r
    ensures r <= acc + cs.Keys
    ensures ClosedUnderReplies(cs, r)
    decreases |cs.Keys - acc|
  {
    var next := acc + Replies(cs, acc);
    if next == acc then acc
    else
      SmallerWhenProperSubset(cs.Keys - next, cs.Keys - acc);
      Cascade(cs, next)
  }

  lemma SmallerWhenProperSubset<T>(a: set<T>, b: set<T>)
    requires a < b
    ensures |a| < |b|
  {
    assert !(b <= a);
    var x :| x in b && x !in a;
    assert b == a + (b - a);
    assert x in b - a;
  }

  /** The parent chain of `x` reaches `root` in at most `n` steps. */
  ghost predicate ReachesWithin(cs: map<CommentId, Comment>, x: CommentId, root: CommentId, n: nat)
    decreases n
  {
    x == root ||
    (n > 0 && x in cs && cs[x].parent.Some? && ReachesWithin(cs, cs[x].parent.value, root, n - 1))
  }

  /** `x` is `root` or a reply, reply of a reply, ... of `root`. */
  ghost predicate Descends(cs: map<CommentId, Comment>, x: CommentId, root: CommentId)
  {
    exists n: nat :: ReachesWithin(cs, x, root, n)
  }

  lemma {:induction false} CascadeOnlyDescendants(cs: map<CommentId, Comment>, acc: set<CommentId>, root: CommentId)
    requires forall y :: y in acc ==> Descends(cs, y, root)
    ensures forall y :: y in Cascade(cs, acc) ==> Descends(cs, y, root)
    decreases |cs.Keys - acc|
  {
    var next := acc + Replies(cs, acc);
    if next != acc {
      forall y | y in Replies(cs, acc)
        ensures Descends(cs, y, root)
      {
        assert Descends(cs, cs[y].parent.value, root);
        var n: nat :| ReachesWithin(cs, cs[y].parent.value, root, n);
        assert ReachesWithin(cs, y, root, n + 1);
      }
      SmallerWhenProperSubset(cs.Keys - next, cs.Keys - acc);
      CascadeOnlyDescendants(cs, next, root);
    }
  }

  lemma {:induction false} ClosedHoldsDescendants(cs: map<CommentId, Comment>, s: set<CommentId>,
                                                  root: CommentId, x: CommentId, n: nat)
    requires root in s && ClosedUnderReplies(cs, s)
    requires ReachesWithin(cs, x, root, n)
    ensures x in s
    decreases n
  {
    if x != root {
      ClosedHoldsDescendants(cs, s, root, cs[x].parent.value, n - 1);
    }
  }

  /** The comments the hook removes when `root` is removed: exactly `root`
      and its descendants, found through `parent` links alone. */
  function Subtree(cs: map<CommentId, Comment>, root: CommentId): (r: set<CommentId>)
    ensures forall x :: x in r <==> Descends(cs, x, root)
    ensures ClosedUnderReplies(cs, r)
  {
    var r := Cascade(cs, {root});
    assert ReachesWithin(cs, root, root, 0);
    CascadeOnlyDescendants(cs, {root}, root);
    forall x | Descends(cs, x, root)
      ensures x in r
    {
      var n: nat :| ReachesWithin(cs, x, root, n);
      ClosedHoldsDescendants(cs, r, root, x, n);
    }
    r
  }

  /** In well-formed threads every descendant sits on its ancestor's post. */
  lemma {:induction false} DescendantsShareThePost(cs: map<CommentId, Comment>, root: CommentId, x: CommentId, n: nat)
    requires ThreadsWellFormed(cs) && root in cs
    requires x in cs && ReachesWithin(cs, x, root, n)
    ensures cs[x].post == cs[root].post
    decreases n
  {
    if x != root {
      DescendantsShareThePost(cs, root, cs[x].parent.value, n - 1);
    }
  }

  /** The cascade crosses post boundaries: a reply attached to another post
      is removed together with its parent. */
  lemma CascadeIgnoresPosts(cs: map<CommentId, Comment>, root: CommentId, reply: CommentId)
    requires root in cs && reply in cs
    requires cs[reply].parent == Some(root) && cs[reply].post != cs[root].post
    ensures reply in Subtree(cs, root)
  {
    assert ReachesWithin(cs, reply, root, 1);
  }

  // ---------------------------------------------------------------------
  // putComment
  // ---------------------------------------------------------------------

  /** `putComment` as written: `parentId` is stored without any check. */
  function PutCommentAsWritten(db: Store, gate: Gate, now: nat, postId: PostId, userId: UserId,
                               content: string, parentId: Option<CommentId>, newId: CommentId,
                               clean: string -> string): (r: Guarded<Reply<CommentId>>)
    requires newId !in db.comments
    ensures postId !in db.posts ==> r == Guarded(Reply(Err(PostMissing), db), gate)
    ensures postId in db.posts && Marked(gate, userId) ==>
      r == Guarded(Reply(Err(CommentCooldownActive), db), gate)
    ensures postId in db.posts && !Marked(gate, userId) ==>
      Marked(r.gate, userId) && r.gate == TryAcquire(gate, userId, now).gate
    ensures r.reply.result.Ok? <==> postId in db.posts && !Marked(gate, userId) && content != ""
    ensures r.reply.result.Err? ==> r.reply.db == db
    ensures r.reply.result.Ok? ==>
      && r.reply.result.value == newId
      && r.reply.db.comments.Keys == db.comments.Keys + {newId}
      && r.reply.db.comments[newId] == Comment(userId, postId, clean(content), parentId, false)
      && (forall c :: c in db.comments ==> r.reply.db.comments[c] == db.comments[c])
      && r.reply.db.posts.Keys == db.posts.Keys
      && r.reply.db.posts[postId].commentCount == db.posts[postId].commentCount + 1
      && r.reply.db.posts[postId] == db.posts[postId].(commentCount := r.reply.db.posts[postId].commentCount)
      && (forall p :: p in db.posts && p != postId ==> r.reply.db.posts[p] == db.posts[p])
      && r.reply.db == db.(comments := r.reply.db.comments, posts := r.reply.db.posts)
  {
    if postId !in db.posts then Guarded(Reply(Err(PostMissing), db), gate)
    else
      var a := TryAcquire(gate, userId, now);
      if !a.granted then Guarded(Reply(Err(CommentCooldownActive), db), gate)
      // The mark stays even when the creation fails validation.
      else if content == "" then Guarded(Reply(Err(CommentValidationFailed), db), a.gate)
      else
        var c := NewComment(userId, postId, SavedContent(content, clean), parentId);
        var post := db.posts[postId];
        var db' := db.(comments := db.comments[newId := c],
                       posts := db.posts[postId := post.(commentCount := post.commentCount + 1)]);
        Guarded(Reply(Ok(newId), db'), a.gate)
  }

  /** The parent a reply names is a comment on the same post. */
  predicate ParentOnPost(db: Store, postId: PostId, parentId: Option<CommentId>)
  {
    parentId.None? || (parentId.value in db.comments && db.comments[parentId.value].post == postId)
  }

  /** `putComment` with the parent check the threads need: a reply whose
      parent is missing or on another post is refused before the cooldown
      gate is consulted. */
  function PutComment(db: Store, gate: Gate, now: nat, postId: PostId, userId: UserId,
                      content: string, parentId: Option<CommentId>, newId: CommentId,
                      clean: string -> string): (r: Guarded<Reply<CommentId>>)
    requires newId !in db.comments
    ensures postId in db.posts && !ParentOnPost(db, postId, parentId) ==>
      r == Guarded(Reply(Err(ParentElsewhere), db), gate)
    ensures postId !in db.posts || ParentOnPost(db, postId, parentId) ==>
      r == PutCommentAsWritten(db, gate, now, postId, userId, content, parentId, newId, clean)
  {
    if postId in db.posts && !ParentOnPost(db, postId, parentId) then
      Guarded(Reply(Err(ParentElsewhere), db), gate)
    else
      PutCommentAsWritten(db, gate, now, postId, userId, content, parentId, newId, clean)
  }

  /** Storing a fresh comment whose post exists and whose parent sits on
      that post, while raising the post's `commentCount` by one, keeps the
      store consistent. */
  lemma InsertCommentKeepsConsistent(db: Store, newId: CommentId, c: Comment)
    requires Consistent(db)
    requires newId !in db.comments && c.post in db.posts
    requires ParentOnPost(db, c.post, c.parent)
    ensures Consistent(db.(comments := db.comments[newId := c],
                           posts := db.posts[c.post := db.posts[c.post].(commentCount := db.posts[c.post].commentCount + 1)]))
  {
    var db' := db.(comments := db.comments[newId := c],
                   posts := db.posts[c.post := db.posts[c.post].(commentCount := db.posts[c.post].commentCount + 1)]);
    assert CountsExact(db') by {
      forall p | p in db'.posts
        ensures db'.posts[p].commentCount == CommentCount(db'.comments, p)
      {
        CommentCountInsert(db.comments, newId, c, p);
      }
    }
    assert Attached(db') by {
      forall x | x in db'.comments ensures db'.comments[x].post in db'.posts {
        if x != newId { assert db'.comments[x] == db.comments[x]; }
      }
    }
    assert ThreadsWellFormed(db'.comments) by {
      forall x | x in db'.comments && db'.comments[x].parent.Some?
        ensures db'.comments[x].parent.value in db'.comments
        ensures db'.comments[db'.comments[x].parent.value].post == db'.comments[x].post
      {
        var q := db'.comments[x].parent.value;
        if x != newId { assert q in db.comments && q != newId; }
      }
    }
  }

  /** What an accepted `putComment` stores: the new comment and the
      post's count raised by one, in a store where its parent check passed. */
  lemma PutCommentStores(db: Store, gate: Gate, now: nat, postId: PostId, userId: UserId,
                         content: string, parentId: Option<CommentId>, newId: CommentId,
                         clean: string -> string)
    requires newId !in db.comments
    requires PutComment(db, gate, now, postId, userId, content, parentId, newId, clean).reply.result.Ok?
    ensures postId in db.posts && ParentOnPost(db, postId, parentId)
    ensures var c := NewComment(userId, postId, SavedContent(content, clean), parentId);
      PutComment(db, gate, now, postId, userId, content, parentId, newId, clean).reply.db ==
        db.(comments := db.comments[newId := c],
            posts := db.posts[postId := db.posts[postId].(commentCount := db.posts[postId].commentCount + 1)])
  {
  }

  /** A refused `putComment` leaves the store as it was. */
  lemma PutCommentRefusedKeeps(db: Store, gate: Gate, now: nat, postId: PostId, userId: UserId,
                               content: string, parentId: Option<CommentId>, newId: CommentId,
                               clean: string -> string)
    requires newId !in db.comments
    requires PutComment(db, gate, now, postId, userId, content, parentId, newId, clean).reply.result.Err?
    ensures PutComment(db, gate, now, postId, userId, content, parentId, newId, clean).reply.db == db
  {
  }

  /** Creating a comment keeps the store consistent; in particular the
      post's incremented `commentCount` equals its recount. */
  lemma PutCommentKeepsConsistent(db: Store, gate: Gate, now: nat, postId: PostId, userId: UserId,
                                  content: string, parentId: Option<CommentId>, newId: CommentId,
                                  clean: string -> string)
    requires newId !in db.comments
    requires Consistent(db)
    ensures Consistent(PutComment(db, gate, now, postId, userId, content, parentId, newId, clean).reply.db)
  {
    var r := PutComment(db, gate, now, postId, userId, content, parentId, newId, clean);
    if r.reply.result.Err? {
      PutCommentRefusedKeeps(db, gate, now, postId, userId, content, parentId, newId, clean);
    } else {
      PutCommentStores(db, gate, now, postId, userId, content, parentId, newId, clean);
      InsertCommentKeepsConsistent(db, newId, NewComment(userId, postId, SavedContent(content, clean), parentId));
    }
  }

  // ---------------------------------------------------------------------
  // deleteComment
  // ---------------------------------------------------------------------

  /** `deleteComment`: remove the comment and, through the hook, its whole
      subtree; then recount the comment's own post. When that post is gone
      the recount fails after the removal has happened. */
  function DeleteComment(db: Store, commentId: CommentId, userId: UserId, isAdmin: bool): (r: Reply<Comment>)
    ensures commentId !in db.comments ==> r == Reply(Err(CommentMissing), db)
    ensures commentId in db.comments && !Authorised(db.comments[commentId].commenter, userId, isAdmin) ==>
      r == Reply(Err(DeleteDenied), db)
    ensures commentId in db.comments && Authorised(db.comments[commentId].commenter, userId, isAdmin) ==>
      && (forall x :: x in r.db.comments <==> x in db.comments && !Descends(db.comments, x, commentId))
      && (forall x :: x in r.db.comments ==> r.db.comments[x] == db.comments[x])
      && r.db == db.(comments := r.db.comments, posts := r.db.posts)
      && var p := db.comments[commentId].post;
         if p in db.posts then
           && r.result == Ok(db.comments[commentId])
           && r.db.posts.Keys == db.posts.Keys
           && r.db.posts[p] == db.posts[p].(commentCount := CommentCount(r.db.comments, p))
           && (forall q :: q in db.posts && q != p ==> r.db.posts[q] == db.posts[q])
         else
           r.result == Err(NullPostRead) && r.db.posts == db.posts
  {
    if commentId !in db.comments then Reply(Err(CommentMissing), db)
    else
      var c := db.comments[commentId];
      if !Authorised(c.commenter, userId, isAdmin) then Reply(Err(DeleteDenied), db)
      else
        var remaining := db.comments - Subtree(db.comments, commentId);
        if c.post !in db.posts then Reply(Err(NullPostRead), db.(comments := remaining))
        else
          var post := db.posts[c.post];
          var recounted := post.(commentCount := CommentCount(remaining, c.post));
          Reply(Ok(c), db.(comments := remaining, posts := db.posts[c.post := recounted]))
  }

  /** In a consistent store deleting a comment keeps it consistent: the
      subtree lies on the comment's own post, which is recounted, and no
      remaining reply points into the removed subtree. */
  lemma DeleteCommentKeepsConsistent(db: Store, commentId: CommentId, userId: UserId, isAdmin: bool)
    requires Consistent(db)
    ensures Consistent(DeleteComment(db, commentId, userId, isAdmin).db)
  {
    var r := DeleteComment(db, commentId, userId, isAdmin);
    if commentId in db.comments && Authorised(db.comments[commentId].commenter, userId, isAdmin) {
      var cs := db.comments;
      var gone := Subtree(cs, commentId);
      var p := cs[commentId].post;
      assert r.db.comments == cs - gone;
      forall x | x in gone && x in cs
        ensures cs[x].post == p
      {
        var n: nat :| ReachesWithin(cs, x, commentId, n);
        DescendantsShareThePost(cs, commentId, x, n);
      }
      forall q | q in r.db.posts && q != p
        ensures r.db.posts[q].commentCount == CommentCount(r.db.comments, q)
      {
        CommentCountRemove(cs, gone, q);
      }
    }
  }

  // ---------------------------------------------------------------------
  // updateComment
  // ---------------------------------------------------------------------

  /** `updateComment`: content is required before anything is looked up;
      on success only the content (through the save hook's filter) and the
      `edited` flag change. */
  function UpdateComment(db: Store, commentId: CommentId, userId: UserId, isAdmin: bool,
                         content: string, clean: string -> string): (r: Reply<Comment>)
    ensures content == "" ==> r == Reply(Err(UpdateNeedsContent), db)
    ensures content != "" && commentId !in db.comments ==> r == Reply(Err(UpdateMissing), db)
    ensures content != "" && commentId in db.comments &&
            !Authorised(db.comments[commentId].commenter, userId, isAdmin) ==>
      r == Reply(Err(UpdateDenied), db)
    ensures r.result.Ok? <==>
      content != "" && commentId in db.comments && Authorised(db.comments[commentId].commenter, userId, isAdmin)
    ensures r.result.Ok? ==>
      && commentId in db.comments
      && var before := db.comments[commentId];
         && r.result.value == Comment(before.commenter, before.post, clean(content), before.parent, true)
         && r.db == db.(comments := db.comments[commentId := r.result.value])
  {
    if content == "" then Reply(Err(UpdateNeedsContent), db)
    else if commentId !in db.comments then Reply(Err(UpdateMissing), db)
    else
      var c := db.comments[commentId];
      if !Authorised(c.commenter, userId, isAdmin) then Reply(Err(UpdateDenied), db)
      else
        var edited := c.(edited := true, content := SavedContent(content, clean));
        Reply(Ok(edited), db.(comments := db.comments[commentId := edited]))
  }

  /** `updateComment` with the ownership check as the source evaluates it:
      only an administrator gets past it. */
  function UpdateCommentAsWritten(db: Store, commentId: CommentId, userId: UserId, isAdmin: bool,
                                  content: string, clean: string -> string): (r: Reply<Comment>)
    ensures r.result.Ok? <==> content != "" && commentId in db.comments && isAdmin
    ensures !isAdmin && content != "" && commentId in db.comments ==> r == Reply(Err(UpdateDenied), db)
    ensures isAdmin ==> r == UpdateComment(db, commentId, userId, isAdmin, content, clean)
  {
    if content == "" then Reply(Err(UpdateNeedsContent), db)
    else if commentId !in db.comments then Reply(Err(UpdateMissing), db)
    else if !AuthorisedAsWritten(db.comments[commentId].commenter, userId, isAdmin) then Reply(Err(UpdateDenied), db)
    else UpdateComment(db, commentId, userId, isAdmin, content, clean)
  }

  /** As written, a commenter who is not an administrator cannot edit their
      own comment; the intended check lets the edit through. */
  lemma OwnEditRefusedAsWritten(db: Store, commentId: CommentId, content: string, clean: string -> string)
    requires commentId in db.comments && content != ""
    ensures var owner := db.comments[commentId].commenter;
            && UpdateCommentAsWritten(db, commentId, owner, false, content, clean) == Reply(Err(UpdateDenied), db)
            && UpdateComment(db, commentId, owner, false, content, clean).result.Ok?
  {
  }

  lemma UpdateCommentKeepsConsistent(db: Store, commentId: CommentId, userId: UserId, isAdmin: bool,
                                     content: string, clean: string -> string)
    requires Consistent(db)
    ensures Consistent(UpdateComment(db, commentId, userId, isAdmin, content, clean).db)
  {
    var r := UpdateComment(db, commentId, userId, isAdmin, content, clean);
    if r.result.Ok? {
      forall p | p in r.db.posts
        ensures r.db.posts[p].commentCount == CommentCount(r.db.comments, p)
      {
        CommentCountReplace(db.comments, commentId, r.result.value, p);
      }
    }
  }

  // ---------------------------------------------------------------------
  // The unchecked parent id, exhibited.
  // ---------------------------------------------------------------------

  /** Two posts by user 7; post 1 carries comment 10, post 2 none. */
  const TwoPosts: Store := Store(
    [],
    map[1 := Post(7, "t", "c", 0, 1, false, false), 2 := Post(7, "t", "c", 0, 0, false, false)],
    map[10 := Comment(7, 1, "x", None, false)],
    [], [], [])

  /** `TwoPosts` after user 8's reply 11 on post 2 under comment 10. */
  function WithCrossReply(clean: string -> string): Store
  {
    TwoPosts.(comments := TwoPosts.comments[11 := Comment(8, 2, clean("hi"), Some(10), false)],
              posts := TwoPosts.posts[2 := Post(7, "t", "c", 0, 1, false, false)])
  }

  lemma TwoPostsConsistent()
    ensures Consistent(TwoPosts)
  {
    assert CommentsOn(TwoPosts.comments, 1) == {10};
    assert CommentsOn(TwoPosts.comments, 2) == {};
  }

  /** As written, user 8 may file a reply on post 2 under comment 10 of post 1. */
  lemma CrossPostReplyAccepted(clean: string -> string)
    ensures PutCommentAsWritten(TwoPosts, Gate(CommentCooldownMs, map[]), 0, 2, 8, "hi", Some(10), 11, clean).reply
            == Reply(Ok(11), WithCrossReply(clean))
  {
  }

  /** The corrected creation refuses that reply and changes nothing. */
  lemma CrossPostReplyRefused(clean: string -> string)
    ensures PutComment(TwoPosts, Gate(CommentCooldownMs, map[]), 0, 2, 8, "hi", Some(10), 11, clean).reply
            == Reply(Err(ParentElsewhere), TwoPosts)
  {
  }

  /** Deleting comment 10 then also deletes reply 11, and only post 1 is
      recounted: post 2 keeps `commentCount == 1` with no comment left on
      it, so the store is no longer consistent. */
  lemma CrossPostReplyLeavesStaleCount(clean: string -> string)
    ensures Consistent(TwoPosts)
    ensures DeleteComment(WithCrossReply(clean), 10, 7, false).result.Ok?
    ensures DeleteComment(WithCrossReply(clean), 10, 7, false).db.posts[2].commentCount == 1
    ensures CommentCount(DeleteComment(WithCrossReply(clean), 10, 7, false).db.comments, 2) == 0
    ensures !Consistent(DeleteComment(WithCrossReply(clean), 10, 7, false).db)
  {
    TwoPostsConsistent();
    var db1 := WithCrossReply(clean);
    var cs1 := db1.comments;
    assert cs1.Keys == {10, 11};
    assert cs1[10].post == 1;
    assert ReachesWithin(cs1, 11, 10, 1);
    assert ReachesWithin(cs1, 10, 10, 0);
    var del := DeleteComment(db1, 10, 7, false);
    assert Authorised(cs1[10].commenter, 7, false);
    assert del.db.comments.Keys == {};
    assert del.db.posts[2] == db1.posts[2];
    CommentCountNone(del.db.comments, 2);
  }
}

=== FILE: cooldown.dfy ===
/** The in-process cooldown gates that throttle posting (`userPosted`) and
    commenting (`usersCommented`): a set of users plus one pending
    `setTimeout` per user that deletes the user again. */
module Cooldown {
  import opened Models

  /** `usersCommented` releases a user 25000 ms after the mark. */
  const CommentCooldownMs: nat := 25000
  /** `userPosted` releases a user 90000 ms after the mark. */
  const PostCooldownMs: nat := 90000

  /** A gate: the marked users, each with the time its removal timer is due. */
  datatype Gate = Gate(cooldown: nat, deadlines: map<UserId, nat>)

  predicate Marked(g: Gate, u: UserId)
  {
    u in g.deadlines
  }

  datatype Acquired = Acquired(granted: bool, gate: Gate)

  /** A gated handler's reply together with the gate after it. */
  datatype Guarded<R> = Guarded(reply: R, gate: Gate)

  /** `has(u)` followed by `add(u)` and the scheduling of the removal. The
      check and the mark are adjacent with no suspension point between them,
      so a sequential check-and-set is exact. */
  function TryAcquire(g: Gate, u: UserId, now: nat): (r: Acquired)
    ensures r.granted <==> !Marked(g, u)
    ensures !r.granted ==> r.gate == g
    ensures r.granted ==> r.gate == g.(deadlines := g.deadlines[u := now + g.cooldown])
  {
    if Marked(g, u) then Acquired(false, g)
    else Acquired(true, g.(deadlines := g.deadlines[u := now + g.cooldown]))
  }

  /** The removal timers that are due at time `now` fire. */
  function Expire(g: Gate, now: nat): (r: Gate)
    ensures r.cooldown == g.cooldown
    ensures forall u :: Marked(r, u) <==> Marked(g, u) && g.deadlines[u] > now
    ensures forall u :: Marked(r, u) ==> u in g.deadlines && r.deadlines[u] == g.deadlines[u]
  {
    g.(deadlines := map u | u in g.deadlines && g.deadlines[u] > now :: g.deadlines[u])
  }

  /** What happens to a gate: a guarded request by `user`, or the clock reaching `at`. */
  datatype Event = Attempt(user: UserId, at: nat) | Tick(at: nat)

  function Step(g: Gate, e: Event): Acquired
  {
    match e
    case Attempt(u, t) => TryAcquire(g, u, t)
    case Tick(t) => Acquired(false, Expire(g, t))
  }

  /** For each event of a run, whether it was a granted attempt. */
  function Grants(g: Gate, evs: seq<Event>): (r: seq<bool>)
    ensures |r| == |evs|
    decreases |evs|
  {
    if |evs| == 0 then []
    else
      var s := Step(g, evs[0]);
      [s.granted] + Grants(s.gate, evs[1..])
  }

  /** Event times never go backwards. */
  ghost predicate Chronological(evs: seq<Event>)
  {
    forall i, j :: 0 <= i < j < |evs| ==> evs[i].at <= evs[j].at
  }

  /** While the clock stays before a marked user's deadline, the user stays
      marked and every attempt of theirs is refused. */
  lemma {:induction false} StaysMarked(g: Gate, evs: seq<Event>, n: nat, u: UserId)
    requires n <= |evs|
    requires Marked(g, u)
    requires forall k :: 0 <= k < n ==> evs[k].at < g.deadlines[u]
    ensures forall k :: 0 <= k < n && evs[k].Attempt? && evs[k].user == u ==> !Grants(g, evs)[k]
    decreases n
  {
    if n > 0 {
      var s := Step(g, evs[0]);
      assert Marked(s.gate, u) && s.gate.deadlines[u] == g.deadlines[u];
      StaysMarked(s.gate, evs[1..], n - 1, u);
      assert forall k :: 1 <= k < n ==> Grants(g, evs)[k] == Grants(s.gate, evs[1..])[k - 1];
    }
  }

  /** Two granted attempts of one user are at least a cooldown apart: at
      most one succeeds within any window, whatever other users and timers
      do in between. */
  lemma {:induction false} OneGrantPerWindow(g: Gate, evs: seq<Event>, i: nat, j: nat)
    requires Chronological(evs)
    requires i < j < |evs|
    requires evs[i].Attempt? && evs[j].Attempt? && evs[i].user == evs[j].user
    requires Grants(g, evs)[i] && Grants(g, evs)[j]
    ensures evs[j].at >= evs[i].at + g.cooldown
    decreases i
  {
    var s := Step(g, evs[0]);
    assert forall k :: 1 <= k < |evs| ==> Grants(g, evs)[k] == Grants(s.gate, evs[1..])[k - 1];
    if i > 0 {
      assert s.gate.cooldown == g.cooldown;
      OneGrantPerWindow(s.gate, evs[1..], i - 1, j - 1);
    } else if evs[j].at < evs[i].at + g.cooldown {
      var u := evs[0].user;
      assert Marked(s.gate, u) && s.gate.deadlines[u] == evs[0].at + g.cooldown;
      StaysMarked(s.gate, evs[1..], j, u);
      assert false;
    }
  }

  /** Once the clock has passed a user's deadline the user can act again. */
  lemma ReleasedAfterCooldown(g: Gate, u: UserId, t1: nat, t2: nat, t3: nat)
    requires !Marked(g, u)
    requires t2 >= t1 + g.cooldown
    ensures Grants(g, [Attempt(u, t1), Tick(t2), Attempt(u, t3)]) == [true, false, true]
  {
    var evs := [Attempt(u, t1), Tick(t2), Attempt(u, t3)];
    var g1 := TryAcquire(g, u, t1).gate;
    var g2 := Expire(g1, t2);
    assert !Marked(g2, u);
    assert evs[1..] == [Tick(t2), Attempt(u, t3)];
    assert evs[1..][1..] == [Attempt(u, t3)];
    assert evs[1..][1..][1..] == [];
    assert Grants(g2, [Attempt(u, t3)]) == [true];
    assert Grants(g1, evs[1..]) == [false, true];
  }
}

=== FILE: likes.dfy ===
/** The like handlers, the `markAsLiked` helper the listings share, and the
    listing of the posts one user liked. */
module Likes {
  import opened Wrappers
  import opened Models
  import opened Seqs
  import opened Store
  import opened Paginate

  const PostNotFound: string := "Post does not exist"
  const AlreadyLiked: string := "Post is already liked"
  const NotLiked: string := "Post is not liked in the first place"
  /** The runtime's TypeError when `markAsLiked` reads the id of a liked
      post that populated to `null`. */
  const NullPostRead: string := "Cannot read properties of null (reading '_id')"
  /** Both listings hand out pages of ten. */
  const PageSize: nat := 10

  /** No user likes a post twice. */
  ghost predicate LikesUnique(likes: seq<PostLike>)
  {
    forall i, j :: 0 <= i < j < |likes| ==> likes[i] != likes[j]
  }

  /** Sets the post's `likeCount` to the recount over `likes`. */
  function Recount(db: Store, p: PostId, likes: seq<PostLike>): Store
    requires p in db.posts
  {
    db.(likes := likes, posts := db.posts[p := db.posts[p].(likeCount := LikeCount(likes, p))])
  }

  /** The search `unlikePost` runs for like `l`. */
  function IsLike(l: PostLike): PostLike -> bool
  {
    (x: PostLike) => x == l
  }

  /** `likePost`: record the like and recount the post's likes. */
  function LikePost(db: Store, postId: PostId, userId: UserId): (r: Reply<()>)
    ensures postId !in db.posts ==> r == Reply(Err(PostNotFound), db)
    ensures postId in db.posts && HasLike(db.likes, postId, userId) ==> r == Reply(Err(AlreadyLiked), db)
    ensures r.result.Ok? <==> postId in db.posts && !HasLike(db.likes, postId, userId)
    ensures r.result.Ok? ==>
      && HasLike(r.db.likes, postId, userId)
      && r.db.likes == db.likes + [PostLike(postId, userId)]
      && r.db.posts.Keys == db.posts.Keys
      && r.db.posts[postId] == db.posts[postId].(likeCount := LikeCount(db.likes, postId) + 1)
      && (forall q :: q in db.posts && q != postId ==> r.db.posts[q] == db.posts[q])
      && r.db == db.(likes := r.db.likes, posts := r.db.posts)
  {
    if postId !in db.posts then Reply(Err(PostNotFound), db)
    else if HasLike(db.likes, postId, userId) then Reply(Err(AlreadyLiked), db)
    else
      var likes := db.likes + [PostLike(postId, userId)];
      LikeCountAppend(db.likes, PostLike(postId, userId), postId);
      Reply(Ok(()), Recount(db, postId, likes))
  }

  /** `unlikePost`: remove the first like of this user on this post and
      recount the post's likes. */
  function UnlikePost(db: Store, postId: PostId, userId: UserId): (r: Reply<()>)
    ensures postId !in db.posts ==> r == Reply(Err(PostNotFound), db)
    ensures postId in db.posts && !HasLike(db.likes, postId, userId) ==> r == Reply(Err(NotLiked), db)
    ensures r.result.Ok? <==> postId in db.posts && HasLike(db.likes, postId, userId)
    ensures r.result.Ok? ==>
      && |r.db.likes| == |db.likes| - 1
      && (exists i :: (0 <= i < |db.likes| && db.likes[i] == PostLike(postId, userId) &&
                       (forall j :: 0 <= j < i ==> db.likes[j] != PostLike(postId, userId)) &&
                       r.db.likes == RemoveAt(db.likes, i)))
      && r.db.posts.Keys == db.posts.Keys
      && r.db.posts[postId] == db.posts[postId].(likeCount := LikeCount(db.likes, postId) - 1)
      && (forall q :: q in db.posts && q != postId ==> r.db.posts[q] == db.posts[q])
      && (forall q :: LikeCount(r.db.likes, q) == LikeCount(db.likes, q) - (if q == postId then 1 else 0))
      && r.db == db.(likes := r.db.likes, posts := r.db.posts)
  {
    if postId !in db.posts then Reply(Err(PostNotFound), db)
    else
      match FindFirst(db.likes, IsLike(PostLike(postId, userId)))
      case None => Reply(Err(NotLiked), db)
      case Some(i) =>
        var likes := RemoveAt(db.likes, i);
        assert forall q :: LikeCount(likes, q) == LikeCount(db.likes, q) - (if q == postId then 1 else 0) by {
          forall q ensures LikeCount(likes, q) == LikeCount(db.likes, q) - (if q == postId then 1 else 0) {
            LikeCountRemoveAt(db.likes, i, q);
          }
        }
        Reply(Ok(()), Recount(db, postId, likes))
  }

  lemma LikePostKeepsConsistent(db: Store, postId: PostId, userId: UserId)
    requires Consistent(db)
    ensures Consistent(LikePost(db, postId, userId).db)
  {
    var r := LikePost(db, postId, userId);
    if r.result.Ok? {
      forall q | q in r.db.posts ensures r.db.posts[q].likeCount == LikeCount(r.db.likes, q) {
        LikeCountAppend(db.likes, PostLike(postId, userId), q);
      }
      assert forall i :: 0 <= i < |db.likes| ==> r.db.likes[i] == db.likes[i];
    }
  }

  lemma UnlikePostKeepsConsistent(db: Store, postId: PostId, userId: UserId)
    requires Consistent(db)
    ensures Consistent(UnlikePost(db, postId, userId).db)
  {
    var r := UnlikePost(db, postId, userId);
    if r.result.Ok? {
      var i := FindFirst(db.likes, IsLike(PostLike(postId, userId))).value;
      UnlikedStore(db, postId, userId, i);
      var likes := RemoveAt(db.likes, i);
      forall q | q != postId ensures LikeCount(likes, q) == LikeCount(db.likes, q) {
        LikeCountRemoveAt(db.likes, i, q);
      }
      RecountKeepsConsistent(db, postId, likes);
    }
  }

  /** Recounting one post over likes whose counts differ only on that post,
      all still attached, keeps a consistent store consistent. */
  lemma RecountKeepsConsistent(db: Store, p: PostId, likes: seq<PostLike>)
    requires Consistent(db) && p in db.posts
    requires forall q :: q != p ==> LikeCount(likes, q) == LikeCount(db.likes, q)
    requires forall k :: 0 <= k < |likes| ==> likes[k].postId in db.posts
    ensures Consistent(Recount(db, p, likes))
  {
  }

  /** Liking never records a second like of the same user on the same post. */
  lemma LikePostKeepsLikesUnique(db: Store, postId: PostId, userId: UserId)
    requires LikesUnique(db.likes)
    ensures LikesUnique(LikePost(db, postId, userId).db.likes)
  {
  }

  /** With no duplicate likes, unliking leaves the user not liking the post. */
  lemma UnlikeRemovesTheLike(db: Store, postId: PostId, userId: UserId)
    requires LikesUnique(db.likes)
    requires UnlikePost(db, postId, userId).result.Ok?
    ensures !HasLike(UnlikePost(db, postId, userId).db.likes, postId, userId)
  {
    var i := FindFirst(db.likes, IsLike(PostLike(postId, userId))).value;
    var likes := UnlikePost(db, postId, userId).db.likes;
    assert likes == db.likes[..i] + db.likes[i + 1..];
    forall k | 0 <= k < |likes| ensures likes[k] != PostLike(postId, userId) {
      if k < i { assert likes[k] == db.likes[k]; }
      else { assert likes[k] == db.likes[k + 1]; }
    }
  }

  /** Liking and then unliking restores the likes and every counter of a
      consistent store. */
  lemma LikeThenUnlike(db: Store, postId: PostId, userId: UserId)
    requires Consistent(db)
    requires LikePost(db, postId, userId).result.Ok?
    ensures UnlikePost(LikePost(db, postId, userId).db, postId, userId) == Reply(Ok(()), db)
  {
    var l := PostLike(postId, userId);
    var mid := Recount(db, postId, db.likes + [l]);
    LikedStore(db, postId, userId);
    AppendedFoundLast(db.likes, l);
    UnlikedStore(mid, postId, userId, |db.likes|);
    RecountTwice(db, postId, db.likes + [l], db.likes);
    RecountCurrent(db, postId);
  }

  /** A recount overrides the one before it. */
  lemma RecountTwice(db: Store, p: PostId, first: seq<PostLike>, second: seq<PostLike>)
    requires p in db.posts
    ensures Recount(Recount(db, p, first), p, second) == Recount(db, p, second)
  {
  }

  /** What an accepted like stores. */
  lemma LikedStore(db: Store, postId: PostId, userId: UserId)
    requires LikePost(db, postId, userId).result.Ok?
    ensures postId in db.posts
    ensures LikePost(db, postId, userId).db == Recount(db, postId, db.likes + [PostLike(postId, userId)])
  {
  }

  /** What an unlike that finds the like at `i` stores. */
  lemma UnlikedStore(db: Store, postId: PostId, userId: UserId, i: nat)
    requires postId in db.posts
    requires FindFirst(db.likes, IsLike(PostLike(postId, userId))) == Some(i)
    ensures UnlikePost(db, postId, userId) == Reply(Ok(()), Recount(db, postId, RemoveAt(db.likes, i)))
  {
  }

  /** Recounting a post whose count is exact changes nothing. */
  lemma RecountCurrent(db: Store, p: PostId)
    requires CountsExact(db) && p in db.posts
    ensures Recount(db, p, db.likes) == db
  {
    assert db.posts[p := db.posts[p].(likeCount := LikeCount(db.likes, p))] == db.posts;
  }

  /** A like appended to likes that lack it is found last, and removing it
      gives the likes back. */
  lemma AppendedFoundLast(likes: seq<PostLike>, l: PostLike)
    requires l !in likes
    ensures FindFirst(likes + [l], IsLike(l)) == Some(|likes|)
    ensures RemoveAt(likes + [l], |likes|) == likes
  {
    FindFirstAppended(likes, l, IsLike(l));
    assert RemoveAt(likes + [l], |likes|) == likes;
  }

  /** A second like by the same user is refused and changes nothing. */
  lemma LikeTwiceRefused(db: Store, postId: PostId, userId: UserId)
    requires LikePost(db, postId, userId).result.Ok?
    ensures LikePost(LikePost(db, postId, userId).db, postId, userId).result == Err(AlreadyLiked)
  {
  }

  // ---------------------------------------------------------------------
  // markAsLiked
  // ---------------------------------------------------------------------

  /** Some like in `ls` is on post `p`. */
  function AnyOn(ls: seq<PostLike>, p: PostId): (r: bool)
    ensures r <==> exists i :: 0 <= i < |ls| && ls[i].postId == p
  {
    if |ls| == 0 then false
    else ls[|ls| - 1].postId == p || AnyOn(ls[..|ls| - 1], p)
  }

  /** The likes `markAsLiked` loads: the user's, or every like when no user is given. */
  function LikesOf(likes: seq<PostLike>, userId: Option<UserId>): seq<PostLike>
  {
    if userId.Some? then Filter(likes, (l: PostLike) => l.userId == userId.value) else likes
  }

  /** One post of `markAsLiked`: set `liked` when a loaded like matches; an
      already set mark is never cleared. */
  function Mark<P>(v: PostView<P>, mine: seq<PostLike>): PostView<P>
  {
    v.(liked := v.liked || AnyOn(mine, v.id))
  }

  /** `markAsLiked(posts, userId)`. */
  function MarkAsLiked<P(==)>(views: seq<PostView<P>>, likes: seq<PostLike>, userId: Option<UserId>): (r: seq<PostView<P>>)
    ensures |r| == |views|
    ensures forall i :: 0 <= i < |views| ==> r[i] == views[i].(liked := r[i].liked)
    ensures userId.Some? ==> forall i :: 0 <= i < |views| ==>
      (r[i].liked <==> views[i].liked || HasLike(likes, views[i].id, userId.value))
    ensures userId.None? ==> forall i :: 0 <= i < |views| ==>
      (r[i].liked <==> views[i].liked || LikeCount(likes, views[i].id) > 0)
  {
    var mine := LikesOf(likes, userId);
    var r := seq(|views|, i requires 0 <= i < |views| => Mark(views[i], mine));
    assert userId.Some? ==> forall i :: 0 <= i < |views| ==>
      (AnyOn(mine, views[i].id) <==> HasLike(likes, views[i].id, userId.value)) by {
      if userId.Some? {
        forall i | 0 <= i < |views| ensures AnyOn(mine, views[i].id) <==> HasLike(likes, views[i].id, userId.value) {
          MineMarksLikes(likes, userId.value, views[i].id);
        }
      }
    }
    assert userId.None? ==> forall i :: 0 <= i < |views| ==>
      (AnyOn(mine, views[i].id) <==> LikeCount(likes, views[i].id) > 0) by {
      if userId.None? {
        forall i | 0 <= i < |views| ensures AnyOn(likes, views[i].id) <==> LikeCount(likes, views[i].id) > 0 {
          LikedIffCounted(likes, views[i].id);
        }
      }
    }
    r
  }

  /** Among the likes loaded for user `u`, one is on post `p` exactly when
      `u` likes `p`. */
  lemma MineMarksLikes(likes: seq<PostLike>, u: UserId, p: PostId)
    ensures AnyOn(LikesOf(likes, Some(u)), p) <==> HasLike(likes, p, u)
  {
    var mine := LikesOf(likes, Some(u));
    var l := PostLike(p, u);
    if HasLike(likes, p, u) {
      var k :| 0 <= k < |likes| && likes[k] == l;
      assert l in mine;
    }
  }

  /** A post has some like exactly when its recount is positive. */
  lemma {:induction false} LikedIffCounted(likes: seq<PostLike>, p: PostId)
    ensures AnyOn(likes, p) <==> LikeCount(likes, p) > 0
  {
    if |likes| > 0 {
      LikedIffCounted(likes[..|likes| - 1], p);
    }
  }

  /** Marking twice marks nothing more. */
  lemma MarkAsLikedIdempotent<P>(views: seq<PostView<P>>, likes: seq<PostLike>, userId: Option<UserId>)
    ensures MarkAsLiked(MarkAsLiked(views, likes, userId), likes, userId) == MarkAsLiked(views, likes, userId)
  {
  }

  // ---------------------------------------------------------------------
  // getUserLikedPosts
  // ---------------------------------------------------------------------

  /** A liked post as the nested populate of `postId` and then `poster`
      returns it: `None` when the post is gone, and the poster as the whole
      account document, since neither populate selects fields. */
  function Populate(db: Store, p: PostId): Option<PostView<User>>
  {
    if p in db.posts then Some(PostView(p, db.posts[p], Poster(db.users, db.posts[p].poster), false))
    else None
  }

  datatype LikedPage<P> = LikedPage(data: seq<Option<PostView<P>>>, numberOfPosts: nat)

  /** The liker's likes, newest first: the default sort `-createdAt`, with
      creation time following insertion order. */
  function LikesNewestFirst(likes: seq<PostLike>, likerId: UserId): seq<PostLike>
  {
    Reverse(Filter(likes, (l: PostLike) => l.userId == likerId))
  }

  /** The page of the liker's likes the listing shows; no page means page 1. */
  function PageOfLikes(likes: seq<PostLike>, likerId: UserId, page: Option<int>): seq<PostLike>
  {
    Paginate.Paginate(LikesNewestFirst(likes, likerId), PageSize, if page.Some? then page.value else 1)
  }

  function PopulateAll(db: Store, entries: seq<PostLike>): (r: seq<Option<PostView<User>>>)
    ensures |r| == |entries|
    ensures forall i :: 0 <= i < |entries| ==> r[i] == Populate(db, entries[i].postId)
  {
    seq(|entries|, i requires 0 <= i < |entries| => Populate(db, entries[i].postId))
  }

  /** `markAsLiked` over the populated page; entries that are gone stay gone. */
  function MarkPresent<P>(data: seq<Option<PostView<P>>>, mine: seq<PostLike>): (r: seq<Option<PostView<P>>>)
    ensures |r| == |data|
    ensures forall i :: 0 <= i < |data| ==> (r[i].Some? <==> data[i].Some?)
    ensures forall i :: 0 <= i < |data| && data[i].Some? ==> r[i].value == Mark(data[i].value, mine)
  {
    seq(|data|, i requires 0 <= i < |data| => if data[i].Some? then Some(Mark(data[i].value, mine)) else None)
  }

  predicate SomeGone<P>(data: seq<Option<PostView<P>>>)
  {
    exists i :: 0 <= i < |data| && data[i].None?
  }

  /** `getUserLikedPosts` as written: page `page` (default 1) of the liker's
      likes, newest first, each populated to its post and that post's whole
      poster document; marked for the viewer when the request carries one. A
      page entry whose post is gone makes the marking fail as soon as the
      viewer has any like. */
  function LikedPostsAsWritten(db: Store, likerId: UserId, page: Option<int>, viewer: Option<UserId>): (r: Result<LikedPage<User>>)
    ensures r.Ok? ==> r.value.numberOfPosts == |r.value.data| <= PageSize
    ensures r.Ok? ==> var entries := PageOfLikes(db.likes, likerId, page);
      && |r.value.data| == |entries|
      && forall i :: 0 <= i < |entries| ==>
           (r.value.data[i].Some? <==> entries[i].postId in db.posts) &&
           (r.value.data[i].Some? ==> r.value.data[i].value.id == entries[i].postId &&
                                      r.value.data[i].value.post == db.posts[entries[i].postId] &&
                                      r.value.data[i].value.poster == Poster(db.users, db.posts[entries[i].postId].poster))
    ensures r.Err? <==> viewer.Some? && |LikesOf(db.likes, viewer)| > 0 &&
                        exists i :: 0 <= i < |PageOfLikes(db.likes, likerId, page)| &&
                                    PageOfLikes(db.likes, likerId, page)[i].postId !in db.posts
    ensures r.Err? ==> r.msg == NullPostRead
    ensures r.Ok? ==> forall i :: 0 <= i < |r.value.data| && r.value.data[i].Some? ==>
      (r.value.data[i].value.liked <==>
         viewer.Some? && HasLike(db.likes, r.value.data[i].value.id, viewer.value))
  {
    var entries := PageOfLikes(db.likes, likerId, page);
    var data := PopulateAll(db, entries);
    GoneIffMissing(db, entries);
    if viewer.None? then Ok(LikedPage(data, |data|))
    else
      var mine := LikesOf(db.likes, viewer);
      if |mine| > 0 && SomeGone(data) then Err(NullPostRead)
      else
        var marked := MarkPresent(data, mine);
        MarkedForViewer(db.likes, data, viewer.value);
        Ok(LikedPage(marked, |data|))
  }

  /** A populated page has a gone entry exactly when one of its likes
      names a post that no longer exists. */
  lemma GoneIffMissing(db: Store, entries: seq<PostLike>)
    ensures SomeGone(PopulateAll(db, entries)) <==> exists i :: 0 <= i < |entries| && entries[i].postId !in db.posts
  {
    var data := PopulateAll(db, entries);
    if exists i :: 0 <= i < |entries| && entries[i].postId !in db.posts {
      var i :| 0 <= i < |entries| && entries[i].postId !in db.posts;
      assert data[i].None?;
    }
  }

  /** Marking unmarked entries with a viewer's likes marks exactly the
      posts that viewer likes. */
  lemma MarkedForViewer<P>(likes: seq<PostLike>, data: seq<Option<PostView<P>>>, u: UserId)
    requires forall i :: 0 <= i < |data| && data[i].Some? ==> !data[i].value.liked
    ensures var marked := MarkPresent(data, LikesOf(likes, Some(u)));
      forall i :: 0 <= i < |marked| && marked[i].Some? ==>
        (marked[i].value.liked <==> HasLike(likes, marked[i].value.id, u))
  {
    var marked := MarkPresent(data, LikesOf(likes, Some(u)));
    forall i | 0 <= i < |marked| && marked[i].Some?
      ensures marked[i].value.liked <==> HasLike(likes, marked[i].value.id, u)
    {
      MineMarksLikes(likes, u, data[i].value.id);
    }
  }

  /** A populated entry with the poster's password left out. */
  function HidePassword(e: Option<PostView<User>>): Option<PostView<PublicUser>>
  {
    match e
    case None => None
    case Some(v) => Some(PostView(v.id, v.post, if v.poster.Some? then Some(Public(v.poster.value)) else None, v.liked))
  }

  /** `getUserLikedPosts` with the poster populated as `"-password"`, the
      way `getMultiplePosts` populates it and `getUser` selects users: the
      same listing, with every poster's password left out. */
  function LikedPosts(db: Store, likerId: UserId, page: Option<int>, viewer: Option<UserId>): (r: Result<LikedPage<PublicUser>>)
    ensures var w := LikedPostsAsWritten(db, likerId, page, viewer);
      && (r.Ok? <==> w.Ok?)
      && (r.Err? ==> r.msg == w.msg)
      && (r.Ok? ==> r.value.numberOfPosts == w.value.numberOfPosts && |r.value.data| == |w.value.data|)
      && (r.Ok? ==> forall i :: 0 <= i < |r.value.data| ==>
            && (r.value.data[i].Some? <==> w.value.data[i].Some?)
            && (r.value.data[i].Some? ==>
                  var shown := r.value.data[i].value;
                  var full := w.value.data[i].value;
                  && shown.id == full.id && shown.post == full.post && shown.liked == full.liked
                  && (shown.poster.Some? <==> full.poster.Some?)
                  && (shown.poster.Some? ==> shown.poster.value == Public(full.poster.value))))
  {
    var w := LikedPostsAsWritten(db, likerId, page, viewer);
    if w.Err? then Err(w.msg)
    else
      var data := w.value.data;
      Ok(LikedPage(seq(|data|, i requires 0 <= i < |data| => HidePassword(data[i])), w.value.numberOfPosts))
  }

  /** As written, the listing hands out the poster's stored password hash:
      one account with hash "hash", one post of theirs, liked by them. */
  lemma PasswordHashListedAsWritten()
    ensures var u := User(1, "poster", "poster@example.com", "hash", "", false, DefaultRole);
            var db := Store([u], map[7 := NewPost(1, "title", "content")], map[], [PostLike(7, 1)], [], []);
            var w := LikedPostsAsWritten(db, 1, None, None);
            && w.Ok? && |w.value.data| == 1 && w.value.data[0].Some?
            && w.value.data[0].value.poster == Some(u)
            && w.value.data[0].value.poster.value.password == "hash"
  {
    var u := User(1, "poster", "poster@example.com", "hash", "", false, DefaultRole);
    var db := Store([u], map[7 := NewPost(1, "title", "content")], map[], [PostLike(7, 1)], [], []);
    assert PageOfLikes(db.likes, 1, None) == [PostLike(7, 1)];
  }

  /** The corrected listing does not depend on any password: changing one
      account's password leaves it exactly as it was. */
  lemma LikedPostsHidesPassword(db: Store, k: nat, password: string,
                                likerId: UserId, page: Option<int>, viewer: Option<UserId>)
    requires k < |db.users|
    ensures LikedPosts(db.(users := db.users[k := db.users[k].(password := password)]), likerId, page, viewer) ==
            LikedPosts(db, likerId, page, viewer)
  {
    var db' := db.(users := db.users[k := db.users[k].(password := password)]);
    var w := LikedPostsAsWritten(db, likerId, page, viewer);
    var w' := LikedPostsAsWritten(db', likerId, page, viewer);
    var entries := PageOfLikes(db.likes, likerId, page);
    assert db'.likes == db.likes && db'.posts == db.posts;
    assert w'.Ok? <==> w.Ok?;
    if w.Ok? {
      var r := LikedPosts(db, likerId, page, viewer);
      var r' := LikedPosts(db', likerId, page, viewer);
      assert |r'.value.data| == |r.value.data| && r'.value.numberOfPosts == r.value.numberOfPosts;
      forall i | 0 <= i < |r.value.data| ensures r'.value.data[i] == r.value.data[i] {
        EntryHidesPassword(db, k, password, likerId, page, viewer, i);
      }
      assert r'.value.data == r.value.data;
    }
  }

  /** One entry of the corrected listing does not depend on any password. */
  lemma EntryHidesPassword(db: Store, k: nat, password: string,
                           likerId: UserId, page: Option<int>, viewer: Option<UserId>, i: nat)
    requires k < |db.users|
    requires LikedPosts(db, likerId, page, viewer).Ok?
    requires i < |LikedPosts(db, likerId, page, viewer).value.data|
    ensures var r' := LikedPosts(db.(users := db.users[k := db.users[k].(password := password)]), likerId, page, viewer);
      r'.Ok? && i < |r'.value.data| && r'.value.data[i] == LikedPosts(db, likerId, page, viewer).value.data[i]
  {
    var db' := db.(users := db.users[k := db.users[k].(password := password)]);
    var w := LikedPostsAsWritten(db, likerId, page, viewer);
    var w' := LikedPostsAsWritten(db', likerId, page, viewer);
    AsWrittenEntryDiffersInPassword(db, k, password, likerId, page, viewer, i);
    if w.value.data[i].Some? && w.value.data[i].value.poster.Some? {
      var u := w.value.data[i].value.poster.value;
      assert Public(u.(password := w'.value.data[i].value.poster.value.password)) == Public(u);
    }
  }

  /** One entry of the as-written listing depends on the password only
      through its poster's own `password` field. */
  lemma AsWrittenEntryDiffersInPassword(db: Store, k: nat, password: string,
                                        likerId: UserId, page: Option<int>, viewer: Option<UserId>, i: nat)
    requires k < |db.users|
    requires LikedPostsAsWritten(db, likerId, page, viewer).Ok?
    requires i < |LikedPostsAsWritten(db, likerId, page, viewer).value.data|
    ensures var w := LikedPostsAsWritten(db, likerId, page, viewer);
      var w' := LikedPostsAsWritten(db.(users := db.users[k := db.users[k].(password := password)]), likerId, page, viewer);
      && w'.Ok? && |w'.value.data| == |w.value.data| && w'.value.numberOfPosts == w.value.numberOfPosts
      && (w'.value.data[i].Some? <==> w.value.data[i].Some?)
      && (w.value.data[i].Some? ==>
            var full, full' := w.value.data[i].value, w'.value.data[i].value;
            && full'.id == full.id && full'.post == full.post && full'.liked == full.liked
            && (full'.poster.Some? <==> full.poster.Some?)
            && (full.poster.Some? ==> full'.poster.value == full.poster.value.(password := full'.poster.value.password)))
  {
    var db' := db.(users := db.users[k := db.users[k].(password := password)]);
    var w := LikedPostsAsWritten(db, likerId, page, viewer);
    var entries := PageOfLikes(db.likes, likerId, page);
    assert db'.likes == db.likes && db'.posts == db.posts;
    if w.value.data[i].Some? {
      PosterIgnoresPassword(db.users, k, password, db.posts[entries[i].postId].poster);
    }
  }

  /** Every element of a page is an element of the paginated sequence. */
  lemma PageMembers<T>(xs: seq<T>, n: int)
    ensures forall i :: 0 <= i < |Paginate.Paginate(xs, PageSize, n)| ==> Paginate.Paginate(xs, PageSize, n)[i] in xs
  {
    var page := Paginate.Paginate(xs, PageSize, n);
    var k := PageIsContiguous(xs, PageSize, n);
    forall i | 0 <= i < |page| ensures page[i] in xs {
      assert page[i] == xs[k + i];
    }
  }

  /** Every like on a page of the liker's listing is one of the liker's likes. */
  lemma PageOfOwnLikes(likes: seq<PostLike>, u: UserId, n: int)
    ensures forall e :: e in Paginate.Paginate(LikesNewestFirst(likes, u), PageSize, n) ==>
      e in LikesOf(likes, Some(u)) && e in likes && e.userId == u
  {
    var mine := LikesOf(likes, Some(u));
    var all := LikesNewestFirst(likes, u);
    PageMembers(all, n);
    forall e | e in all ensures e in mine {
      var i :| 0 <= i < |all| && all[i] == e;
      assert all[i] == mine[|mine| - 1 - i];
    }
  }

  /** When every like references an existing post, a user reading the posts
      they liked themselves gets no error and sees every entry present and
      marked as liked. */
  lemma OwnLikedPostsAllMarked(db: Store, u: UserId, page: Option<int>)
    requires Attached(db)
    ensures LikedPosts(db, u, page, Some(u)).Ok?
    ensures forall i :: 0 <= i < |LikedPosts(db, u, page, Some(u)).value.data| ==>
      LikedPosts(db, u, page, Some(u)).value.data[i].Some? &&
      LikedPosts(db, u, page, Some(u)).value.data[i].value.liked
  {
    var mine := LikesOf(db.likes, Some(u));
    var n := if page.Some? then page.value else 1;
    var entries := PageOfLikes(db.likes, u, page);
    PageOfOwnLikes(db.likes, u, n);
    forall i | 0 <= i < |entries| ensures entries[i].postId in db.posts && AnyOn(mine, entries[i].postId) {
      var e := entries[i];
      assert e in mine && e in db.likes;
      var j :| 0 <= j < |db.likes| && db.likes[j] == e;
      var m :| 0 <= m < |mine| && mine[m] == e;
    }
    assert !SomeGone(PopulateAll(db, entries));
  }
}

=== FILE: login.dfy ===
/** Registration and login: account creation with a hashed password and
    the signed token both hand back. */
module Login {
  import opened Wrappers
  import opened Models
  import opened Seqs
  import opened Store
  import opened Auth

  const InsufficientRegister: string := "Insufficient information to register"
  const DuplicateUser: string := "Cannot have duplicate email and username"
  const InsufficientLogin: string := "Insufficient information to login"
  const BadCredentials: string := "Email or password incorrect"
  /** The role that makes a new account an administrator. */
  const AdminRole: string := "Moderator"

  /** What both handlers answer with on success. */
  datatype UserDict = UserDict(token: string, username: string, userId: UserId, isAdmin: bool)

  /** `buildToken`: the token payload names the user and their admin flag. */
  function BuildToken(u: User): (r: Body)
    ensures r.Keys == {"userId", "isAdmin"}
    ensures Field(r, "userId") == Id(u.id) && Field(r, "isAdmin") == Bool(u.isAdmin)
  {
    map["userId" := Id(u.id), "isAdmin" := Bool(u.isAdmin)]
  }

  /** What `jwt.sign` signs: the payload with `iat` added, the issue time
      `now` (milliseconds) in whole seconds. */
  function Issued(payload: Body, now: nat): (r: Body)
    ensures r.Keys == payload.Keys + {"iat"}
    ensures Field(r, "iat") == Num(now / 1000)
    ensures forall k :: k in payload && k != "iat" ==> r[k] == payload[k]
  {
    payload["iat" := Num(now / 1000)]
  }

  /** The token handed to `u` at time `now`. */
  function TokenFor(u: User, sign: Body -> string, now: nat): string
  {
    sign(Issued(BuildToken(u), now))
  }

  /** `getUserDict` for a token just signed over `BuildToken(u)`. */
  function GetUserDict(token: string, u: User): UserDict
  {
    UserDict(token, u.username, u.id, u.isAdmin)
  }

  /** `User.findOne({$or: [{email}, {username}]})` finds someone. */
  predicate Taken(users: seq<User>, email: string, username: string)
  {
    exists i :: 0 <= i < |users| && (users[i].email == email || users[i].username == username)
  }

  predicate IdTaken(users: seq<User>, id: UserId)
  {
    exists i :: 0 <= i < |users| && users[i].id == id
  }

  /** The account `register` tries to create. */
  function Account(newId: UserId, username: string, email: string, password: string,
                   role: Option<string>, hash: string -> string): User
  {
    NewUser(newId, username, Lower(email), hash(password), role, role == Some(AdminRole))
  }

  /** `register` as written: the schema's length rule for `password` is
      checked on the stored value, which is already the hash. */
  function RegisterAsWritten(db: Store, username: string, email: string, password: string,
                             role: Option<string>, newId: UserId,
                             hash: string -> string, sign: Body -> string, now: nat,
                             isEmail: string -> bool): (r: Reply<UserDict>)
    requires !IdTaken(db.users, newId)
    ensures username == "" || email == "" || password == "" ==> r == Reply(Err(InsufficientRegister), db)
    ensures username != "" && email != "" && password != "" && Taken(db.users, Lower(email), username) ==>
      r == Reply(Err(DuplicateUser), db)
    ensures r.result.Err? ==> r.db == db
    ensures r.result.Ok? <==>
      username != "" && email != "" && password != "" && !Taken(db.users, Lower(email), username) &&
      UserValid(Account(newId, username, email, password, role, hash), isEmail)
    ensures r.result.Ok? ==> |r.db.users| == |db.users| + 1
    ensures r.result.Ok? ==>
      var u := r.db.users[|db.users|];
      && r.db == db.(users := db.users + [u])
      && u.id == newId && u.username == username && u.email == Lower(email)
      && u.password == hash(password) && u.biography == ""
      && (u.isAdmin <==> role == Some(AdminRole))
      && u.role == (if role.Some? then role.value else DefaultRole)
      && r.result.value == UserDict(TokenFor(u, sign, now), username, newId, u.isAdmin)
  {
    if username == "" || email == "" || password == "" then Reply(Err(InsufficientRegister), db)
    else if Taken(db.users, Lower(email), username) then Reply(Err(DuplicateUser), db)
    else
      var u := Account(newId, username, email, password, role, hash);
      if !UserValid(u, isEmail) then Reply(Err(UserValidationFailed), db)
      else Reply(Ok(GetUserDict(TokenFor(u, sign, now), u)), db.(users := db.users + [u]))
  }

  /** `register` with the length rule applied to the password the user
      chose, as the schema's message ("Password must be at least 8
      characters long") means it. */
  function Register(db: Store, username: string, email: string, password: string,
                    role: Option<string>, newId: UserId,
                    hash: string -> string, sign: Body -> string, now: nat,
                    isEmail: string -> bool): (r: Reply<UserDict>)
    requires !IdTaken(db.users, newId)
    ensures r.result.Ok? ==> JsLength(password) >= PasswordMinLength
    ensures (username != "" && email != "" && password != "" && !Taken(db.users, Lower(email), username) &&
             JsLength(password) < PasswordMinLength) ==> r == Reply(Err(UserValidationFailed), db)
    ensures JsLength(password) >= PasswordMinLength ==>
      r == RegisterAsWritten(db, username, email, password, role, newId, hash, sign, now, isEmail)
  {
    var r := RegisterAsWritten(db, username, email, password, role, newId, hash, sign, now, isEmail);
    if r.result.Ok? && JsLength(password) < PasswordMinLength then Reply(Err(UserValidationFailed), db)
    else r
  }

  /** Registration never creates a second account with a taken username or
      e-mail. */
  lemma RegisterKeepsUsersUnique(db: Store, username: string, email: string, password: string,
                                 role: Option<string>, newId: UserId,
                                 hash: string -> string, sign: Body -> string, now: nat,
                                 isEmail: string -> bool)
    requires !IdTaken(db.users, newId)
    requires UsersUnique(db.users)
    ensures UsersUnique(Register(db, username, email, password, role, newId, hash, sign, now, isEmail).db.users)
  {
    var r := Register(db, username, email, password, role, newId, hash, sign, now, isEmail);
    if r.result.Ok? {
      forall i, j | 0 <= i < j < |r.db.users|
        ensures r.db.users[i].username != r.db.users[j].username && r.db.users[i].email != r.db.users[j].email
      {
        if j == |db.users| {
          assert r.db.users[i] == db.users[i];
        }
      }
    }
  }

  /** Registering touches only the users, so it keeps the store consistent,
      as written and corrected alike. */
  lemma RegisterKeepsConsistent(db: Store, username: string, email: string, password: string,
                                role: Option<string>, newId: UserId,
                                hash: string -> string, sign: Body -> string, now: nat,
                                isEmail: string -> bool)
    requires !IdTaken(db.users, newId)
    requires Consistent(db)
    ensures Consistent(RegisterAsWritten(db, username, email, password, role, newId, hash, sign, now, isEmail).db)
    ensures Consistent(Register(db, username, email, password, role, newId, hash, sign, now, isEmail).db)
  {
  }

  /** `login`: the first account with the lowercased e-mail, if the password
      matches its hash under `compare`. */
  function Login(db: Store, email: string, password: string,
                 compare: (string, string) -> bool, sign: Body -> string, now: nat): (r: Result<UserDict>)
    ensures email == "" || password == "" ==> r == Err(InsufficientLogin)
    ensures r.Err? && email != "" && password != "" ==> r.msg == BadCredentials
    ensures r.Ok? <==>
      email != "" && password != "" &&
      exists i :: 0 <= i < |db.users| && db.users[i].email == Lower(email) &&
                  (forall j :: 0 <= j < i ==> db.users[j].email != Lower(email)) &&
                  compare(password, db.users[i].password)
    ensures r.Ok? ==> exists i :: (0 <= i < |db.users| && db.users[i].email == Lower(email) &&
      (forall j :: 0 <= j < i ==> db.users[j].email != Lower(email)) &&
      r.value == UserDict(TokenFor(db.users[i], sign, now), db.users[i].username, db.users[i].id, db.users[i].isAdmin))
  {
    if email == "" || password == "" then Err(InsufficientLogin)
    else match FindFirst(db.users, (u: User) => u.email == Lower(email))
      case None => Err(BadCredentials)
      case Some(i) =>
        if compare(password, db.users[i].password) then Ok(GetUserDict(TokenFor(db.users[i], sign, now), db.users[i]))
        else Err(BadCredentials)
  }

  /** An unknown e-mail and a wrong password get the same answer. */
  lemma LoginHidesWhichCheckFailed(db: Store, unknown: string, password: string, known: string, wrong: string,
                                   compare: (string, string) -> bool, sign: Body -> string, now: nat)
    requires unknown != "" && password != "" && known != "" && wrong != ""
    requires forall i :: 0 <= i < |db.users| ==> db.users[i].email != Lower(unknown)
    requires |db.users| > 0 && db.users[0].email == Lower(known) && !compare(wrong, db.users[0].password)
    ensures Login(db, unknown, password, compare, sign, now) == Login(db, known, wrong, compare, sign, now)
            == Err(BadCredentials)
  {
  }

  /** Registering at `regNow` and then logging in at `loginNow` with the same
      password, and the e-mail in any letter case, succeeds for the new
      account. The reply differs from the registration's only in the token,
      which carries the login's issue time, so within the same second the two
      replies are equal. */
  lemma RegisterThenLogin(db: Store, username: string, email: string, password: string,
                          role: Option<string>, newId: UserId,
                          hash: string -> string, compare: (string, string) -> bool,
                          sign: Body -> string, regNow: nat, loginNow: nat,
                          isEmail: string -> bool, typed: string)
    requires !IdTaken(db.users, newId)
    requires Register(db, username, email, password, role, newId, hash, sign, regNow, isEmail).result.Ok?
    requires compare(password, hash(password))
    requires Lower(typed) == Lower(email)
    ensures var reg := Register(db, username, email, password, role, newId, hash, sign, regNow, isEmail);
            var u := reg.db.users[|db.users|];
            var log := Login(reg.db, typed, password, compare, sign, loginNow);
            && log.Ok?
            && log.value == reg.result.value.(token := TokenFor(u, sign, loginNow))
            && (regNow / 1000 == loginNow / 1000 ==> log == reg.result)
  {
    var reg := Register(db, username, email, password, role, newId, hash, sign, regNow, isEmail);
    var n := |db.users|;
    assert |typed| == |Lower(typed)| == |email|;
    assert forall i :: 0 <= i < n ==> reg.db.users[i] == db.users[i];
    assert forall i :: 0 <= i < n ==> db.users[i].email != Lower(typed);
    assert reg.db.users[n].email == Lower(typed);
  }

  /** The token a login hands out, presented to the verifying middleware,
      puts the account's own id and admin flag into the request body. The
      signer and decoder are only assumed to agree on the two identity
      fields of the accounts' own payloads, whatever else (such as `iat`)
      the decoded payload holds, as `jwt.sign` and `jwt.verify` do under one
      key. */
  lemma LoginTokenIdentifiesUser(db: Store, email: string, password: string,
                                 compare: (string, string) -> bool, sign: Body -> string, now: nat,
                                 decode: string -> Option<Body>, signed: string -> bool, body: Body)
    requires Login(db, email, password, compare, sign, now).Ok?
    requires forall i :: 0 <= i < |db.users| ==>
      var t := TokenFor(db.users[i], sign, now);
      && t != "" && signed(t) && decode(t).Some?
      && Field(decode(t).value, "userId") == Id(db.users[i].id)
      && Field(decode(t).value, "isAdmin") == Bool(db.users[i].isAdmin)
    ensures var d := Login(db, email, password, compare, sign, now).value;
            var v := VerifyToken(body, Some(d.token), decode, signed);
            v.Ok? && v.value["userId"] == Id(d.userId) && v.value["isAdmin"] == Bool(d.isAdmin)
  {
    var i :| 0 <= i < |db.users| && db.users[i].email == Lower(email) &&
      Login(db, email, password, compare, sign, now).value ==
        UserDict(TokenFor(db.users[i], sign, now), db.users[i].username, db.users[i].id, db.users[i].isAdmin);
    assert decode(TokenFor(db.users[i], sign, now)).Some?;
  }

  // ---------------------------------------------------------------------
  // The password rule on the hash, exhibited.
  // ---------------------------------------------------------------------

  /** Every bcrypt hash is 60 characters long. */
  function BcryptLike(p: string): string
  {
    "$2b$10$" + seq(53, _ => 'a')
  }

  function SignAny(payload: Body): string { "token" }
  function AnyEmail(s: string): bool { true }

  const NoUsers: Store := Store([], map[], map[], [], [], [])

  /** As written, a one-character password is accepted, because the length
      rule only sees its 60-character hash; the corrected handler refuses it. */
  lemma ShortPasswordAccepted()
    ensures RegisterAsWritten(NoUsers, "grubber", "a@b.co", "x", None, 1, BcryptLike, SignAny, 0, AnyEmail).result.Ok?
    ensures Register(NoUsers, "grubber", "a@b.co", "x", None, 1, BcryptLike, SignAny, 0, AnyEmail).result
            == Err(UserValidationFailed)
  {
    HashedAccountValid();
    assert JsLength("x") < PasswordMinLength;
  }

  /** The account registered with password `"x"` passes the schema, since
      its stored password is the 60-character hash. */
  lemma HashedAccountValid()
    ensures UserValid(Account(1, "grubber", "a@b.co", "x", None, BcryptLike), AnyEmail)
  {
    var u := Account(1, "grubber", "a@b.co", "x", None, BcryptLike);
    assert |u.password| == 60;
    assert ' ' !in u.username;
    assert u.role == "User";
  }
}

=== FILE: messages.dfy ===
/** The direct-message handlers: reading a conversation, sending a message
    (opening the conversation on first contact), and listing a user's
    conversations. */
module Messages {
  import opened Wrappers
  import opened Models
  import opened Seqs
  import opened Store
  import Paginate

  const ChatMissing: string := "Chat does not exists"
  const ReceiverMissing: string := "Receiver does not exist"
  /** The runtime's TypeError when a listed conversation has fewer than two
      populated recipients and `recipients[1]._id` is read. */
  const UndefinedIdRead: string := "Cannot read properties of undefined (reading '_id')"
  /** `getMessages` returns at most this many messages. */
  const MessageLimit: nat := 12

  predicate ChatExists(chats: seq<Chat>, id: ChatId)
  {
    exists i :: 0 <= i < |chats| && chats[i].id == id
  }

  predicate UserExists(users: seq<User>, id: UserId)
  {
    exists i :: 0 <= i < |users| && users[i].id == id
  }

  /** A conversation's messages, oldest first. */
  function MessagesIn(messages: seq<Message>, chatId: ChatId): (r: seq<Message>)
    ensures forall i :: 0 <= i < |r| ==> r[i].conversation == chatId
  {
    Filter(messages, (m: Message) => m.conversation == chatId)
  }

  /** `getMessages`: the newest twelve messages of the conversation, newest
      first (creation time following insertion order). */
  function GetMessages(db: Store, chatId: ChatId): (r: Result<seq<Message>>)
    ensures r.Err? <==> !ChatExists(db.chats, chatId)
    ensures r.Err? ==> r.msg == ChatMissing
    ensures r.Ok? ==> |r.value| == Paginate.Min(MessageLimit, |MessagesIn(db.messages, chatId)|)
    ensures r.Ok? ==> forall i :: 0 <= i < |r.value| ==>
      r.value[i] == MessagesIn(db.messages, chatId)[|MessagesIn(db.messages, chatId)| - 1 - i]
  {
    if !ChatExists(db.chats, chatId) then Err(ChatMissing)
    else Ok(Take(Reverse(MessagesIn(db.messages, chatId)), MessageLimit))
  }

  /** `Chat.findOne({recipients: {$all: [a, b]}})`: the first conversation
      listing both users. When `a == b` any conversation of `a` matches. */
  function ChatBetween(chats: seq<Chat>, a: UserId, b: UserId): (r: Option<nat>)
    ensures r.Some? ==> r.value < |chats| && a in chats[r.value].recipients && b in chats[r.value].recipients
    ensures r.None? ==> forall i :: 0 <= i < |chats| ==> !(a in chats[i].recipients && b in chats[i].recipients)
  {
    FindFirst(chats, (c: Chat) => a in c.recipients && b in c.recipients)
  }

  /** `sendMessage`: find or open the conversation, then create the message
      and stamp the conversation, whose save also renews `updatedAt`. A
      message that fails validation leaves a newly opened conversation
      behind, unstamped. */
  function SendMessage(db: Store, userId: UserId, recipientId: UserId, content: string,
                       now: nat, newChatId: ChatId): (r: Reply<()>)
    requires !ChatExists(db.chats, newChatId)
    ensures !UserExists(db.users, recipientId) ==> r == Reply(Err(ReceiverMissing), db)
    ensures r.result.Ok? <==> UserExists(db.users, recipientId) && content != ""
    ensures r.result.Err? && UserExists(db.users, recipientId) ==>
      && r.result.msg == MessageValidationFailed
      && r.db == db.(chats := r.db.chats)
      && (if ChatBetween(db.chats, userId, recipientId).Some? then r.db.chats == db.chats
          else r.db.chats == db.chats + [Chat(newChatId, [userId, recipientId], None, now)])
    ensures r.result.Ok? ==>
      match ChatBetween(db.chats, userId, recipientId)
      case Some(i) =>
        && r.db.chats == db.chats[i := db.chats[i].(lastMessageAt := Some(now), updatedAt := now)]
        && r.db.messages == db.messages + [Message(db.chats[i].id, userId, content)]
        && r.db == db.(chats := r.db.chats, messages := r.db.messages)
      case None =>
        && r.db.chats == db.chats + [Chat(newChatId, [userId, recipientId], Some(now), now)]
        && r.db.messages == db.messages + [Message(newChatId, userId, content)]
        && r.db == db.(chats := r.db.chats, messages := r.db.messages)
  {
    if !UserExists(db.users, recipientId) then Reply(Err(ReceiverMissing), db)
    else
      var found := ChatBetween(db.chats, userId, recipientId);
      var chats := if found.Some? then db.chats else db.chats + [Chat(newChatId, [userId, recipientId], None, now)];
      var i := if found.Some? then found.value else |db.chats|;
      var m := Message(chats[i].id, userId, content);
      if !MessageValid(m) then Reply(Err(MessageValidationFailed), db.(chats := chats))
      else
        Reply(Ok(()), db.(chats := chats[i := chats[i].(lastMessageAt := Some(now), updatedAt := now)],
                          messages := db.messages + [m]))
  }

  /** Sending a message touches only conversations and messages, so it
      keeps the store consistent. */
  lemma SendMessageKeepsConsistent(db: Store, userId: UserId, recipientId: UserId, content: string,
                                   now: nat, newChatId: ChatId)
    requires !ChatExists(db.chats, newChatId)
    requires Consistent(db)
    ensures Consistent(SendMessage(db, userId, recipientId, content, now, newChatId).db)
  {
  }

  /** The message just sent is the first one the conversation shows. */
  lemma SentMessageComesFirst(db: Store, userId: UserId, recipientId: UserId, content: string,
                              now: nat, newChatId: ChatId)
    requires !ChatExists(db.chats, newChatId)
    requires SendMessage(db, userId, recipientId, content, now, newChatId).result.Ok?
    ensures var after := SendMessage(db, userId, recipientId, content, now, newChatId).db;
            var chatId := after.messages[|after.messages| - 1].conversation;
            && ChatExists(after.chats, chatId)
            && GetMessages(after, chatId).Ok?
            && GetMessages(after, chatId).value[0] == Message(chatId, userId, content)
  {
    var after := SendMessage(db, userId, recipientId, content, now, newChatId).db;
    var m := after.messages[|after.messages| - 1];
    var found := ChatBetween(db.chats, userId, recipientId);
    if found.Some? {
      assert after.chats[found.value].id == m.conversation;
    } else {
      assert after.chats[|db.chats|].id == m.conversation;
    }
    var inChat := MessagesIn(after.messages, m.conversation);
    assert m in inChat;
    FilterSnoc(db.messages, m, (x: Message) => x.conversation == m.conversation);
  }

  /** The first message between two users opens one conversation; later
      messages between them reuse it. */
  lemma SecondMessageReusesChat(db: Store, userId: UserId, recipientId: UserId, content: string,
                                now: nat, newChatId: ChatId,
                                content2: string, later: nat, newChatId2: ChatId)
    requires !ChatExists(db.chats, newChatId)
    requires SendMessage(db, userId, recipientId, content, now, newChatId).result.Ok?
    requires !ChatExists(SendMessage(db, userId, recipientId, content, now, newChatId).db.chats, newChatId2)
    ensures var mid := SendMessage(db, userId, recipientId, content, now, newChatId).db;
            |SendMessage(mid, userId, recipientId, content2, later, newChatId2).db.chats| == |mid.chats|
  {
    var mid := SendMessage(db, userId, recipientId, content, now, newChatId).db;
    var found := ChatBetween(db.chats, userId, recipientId);
    var i := if found.Some? then found.value else |db.chats|;
    assert userId in mid.chats[i].recipients && recipientId in mid.chats[i].recipients;
  }

  // ---------------------------------------------------------------------
  // getChats
  // ---------------------------------------------------------------------

  /** A listed conversation: its populated recipients (users that still
      exist, in order) and the one the listing shows as the other party. */
  datatype ChatView = ChatView(chat: Chat, members: seq<UserId>, recipient: Option<UserId>)

  /** The loop over `j = 0, 1`: the last of the first two members that is
      not the requesting user; none when both are that user. */
  function OtherParty(members: seq<UserId>, userId: UserId): (r: Option<UserId>)
    requires |members| >= 2
    ensures r.Some? ==> r.value != userId && (r.value == members[0] || r.value == members[1])
    ensures r.None? <==> members[0] == userId && members[1] == userId
    ensures members[1] != userId ==> r == Some(members[1])
  {
    if members[1] != userId then Some(members[1])
    else if members[0] != userId then Some(members[0])
    else None
  }

  /** The `j = 0, 1` loop as the source evaluates it: `recipients[j]._id !==
      userId` compares an ObjectId with a string and always holds, so the
      second member is always chosen. */
  function OtherPartyAsWritten(members: seq<UserId>, userId: UserId): Option<UserId>
    requires |members| >= 2
  {
    Some(members[1])
  }

  /** As written, a user who is the second recipient of a conversation sees
      themselves as its other party; the intended loop shows the first. */
  lemma SelfShownAsWritten(members: seq<UserId>, userId: UserId)
    requires |members| >= 2 && members[0] != userId && members[1] == userId
    ensures OtherPartyAsWritten(members, userId) == Some(userId)
    ensures OtherParty(members, userId) == Some(members[0])
  {
  }

  /** Populating an array of user references keeps the users that exist. */
  function Members(users: seq<User>, recipients: seq<UserId>): (r: seq<UserId>)
    ensures |r| <= |recipients|
    ensures forall i :: 0 <= i < |r| ==> UserExists(users, r[i]) && r[i] in recipients
  {
    Filter(recipients, Known(users))
  }

  function Known(users: seq<User>): UserId -> bool
  {
    (u: UserId) => UserExists(users, u)
  }

  /** `Chat.find({recipients: {$in: [userId]}})`. */
  function ChatsOf(chats: seq<Chat>, userId: UserId): seq<Chat>
  {
    Filter(chats, HasRecipient(userId))
  }

  function HasRecipient(userId: UserId): Chat -> bool
  {
    (c: Chat) => userId in c.recipients
  }

  /** Each conversation with its populated members and the other party. */
  function Views(users: seq<User>, chats: seq<Chat>, userId: UserId): (r: seq<ChatView>)
    requires forall i :: 0 <= i < |chats| ==> |Members(users, chats[i].recipients)| >= 2
    ensures |r| == |chats|
    ensures forall i :: 0 <= i < |r| ==>
      && r[i].chat == chats[i]
      && r[i].members == Members(users, chats[i].recipients)
      && |r[i].members| >= 2
      && r[i].recipient == OtherParty(r[i].members, userId)
  {
    if |chats| == 0 then []
    else
      var ms := Members(users, chats[0].recipients);
      var rest := Views(users, chats[1..], userId);
      assert forall i :: 1 <= i < |chats| ==> chats[1..][i - 1] == chats[i];
      [ChatView(chats[0], ms, OtherParty(ms, userId))] + rest
  }

  /** A conversation with fewer than two populated recipients. */
  ghost predicate SomeChatShort(users: seq<User>, chats: seq<Chat>)
  {
    exists i :: 0 <= i < |chats| && |Members(users, chats[i].recipients)| < 2
  }

  /** Conversations in `.sort("-updatedAt")` order: most recently saved first. */
  predicate UpdatedDescending(chats: seq<Chat>)
  {
    forall i, j :: 0 <= i < j < |chats| ==> chats[i].updatedAt >= chats[j].updatedAt
  }

  /** Places `c` into a newest-first list, ahead of every conversation saved
      no later than it. */
  function InsertByUpdate(c: Chat, sorted: seq<Chat>): (r: seq<Chat>)
    requires UpdatedDescending(sorted)
    ensures |r| == |sorted| + 1
    ensures multiset(r) == multiset(sorted) + multiset{c}
    ensures UpdatedDescending(r)
  {
    if |sorted| == 0 || sorted[0].updatedAt <= c.updatedAt then [c] + sorted
    else
      var rest := InsertByUpdate(c, sorted[1..]);
      assert sorted == [sorted[0]] + sorted[1..];
      NoneNewerThanHead(c, sorted, rest);
      [sorted[0]] + rest
  }

  /** Inserting a conversation older than the head of a newest-first list
      into its tail yields nothing newer than that head. */
  lemma NoneNewerThanHead(c: Chat, sorted: seq<Chat>, rest: seq<Chat>)
    requires UpdatedDescending(sorted) && |sorted| > 0 && c.updatedAt < sorted[0].updatedAt
    requires multiset(rest) == multiset(sorted[1..]) + multiset{c}
    ensures forall k :: 0 <= k < |rest| ==> rest[k].updatedAt <= sorted[0].updatedAt
  {
    forall k | 0 <= k < |rest| ensures rest[k].updatedAt <= sorted[0].updatedAt {
      assert rest[k] in multiset(rest);
      if rest[k] != c {
        assert rest[k] in sorted[1..];
      }
    }
  }

  /** `.sort("-updatedAt")` over the conversations found: a permutation of
      them, most recently saved first. Conversations saved at the same time
      keep their stored order. */
  function NewestFirst(chats: seq<Chat>): (r: seq<Chat>)
    ensures |r| == |chats|
    ensures multiset(r) == multiset(chats)
    ensures UpdatedDescending(r)
  {
    if |chats| == 0 then []
    else
      assert chats == [chats[0]] + chats[1..];
      InsertByUpdate(chats[0], NewestFirst(chats[1..]))
  }

  /** A failing conversation fails the listing whatever the order. */
  lemma ShortAnyOrder(users: seq<User>, xs: seq<Chat>, ys: seq<Chat>)
    requires multiset(xs) == multiset(ys)
    ensures SomeChatShort(users, xs) <==> SomeChatShort(users, ys)
  {
    if SomeChatShort(users, xs) {
      var i :| 0 <= i < |xs| && |Members(users, xs[i].recipients)| < 2;
      assert xs[i] in multiset(ys);
      var j :| 0 <= j < |ys| && ys[j] == xs[i];
    }
    if SomeChatShort(users, ys) {
      var i :| 0 <= i < |ys| && |Members(users, ys[i].recipients)| < 2;
      assert ys[i] in multiset(xs);
      var j :| 0 <= j < |xs| && xs[j] == ys[i];
    }
  }

  /** The listing loop over conversations already found and sorted: the
      first conversation with fewer than two populated recipients fails it. */
  function ListChats(users: seq<User>, chats: seq<Chat>, userId: UserId): (r: Result<seq<ChatView>>)
    ensures r.Err? <==> SomeChatShort(users, chats)
    ensures r.Err? ==> r.msg == UndefinedIdRead
    ensures r.Ok? ==> r.value == Views(users, chats, userId)
  {
    if exists i :: 0 <= i < |chats| && |Members(users, chats[i].recipients)| < 2 then Err(UndefinedIdRead)
    else Ok(Views(users, chats, userId))
  }

  /** Sorting the user's conversations keeps them the user's. */
  lemma SortedChatsOf(chats: seq<Chat>, userId: UserId)
    ensures forall i :: 0 <= i < |NewestFirst(ChatsOf(chats, userId))| ==>
      userId in NewestFirst(ChatsOf(chats, userId))[i].recipients
  {
    var found := ChatsOf(chats, userId);
    var mine := NewestFirst(found);
    forall i | 0 <= i < |mine| ensures userId in mine[i].recipients {
      assert mine[i] in multiset(found);
      assert mine[i] in found;
    }
  }

  /** `getChats`: every conversation the user is a recipient of, most
      recently saved first, with the other party picked out. A conversation
      with fewer than two populated recipients fails the whole listing. */
  function GetChats(db: Store, userId: UserId): (r: Result<seq<ChatView>>)
    ensures r.Err? <==> SomeChatShort(db.users, ChatsOf(db.chats, userId))
    ensures r.Err? ==> r.msg == UndefinedIdRead
    ensures r.Ok? ==> |r.value| == |ChatsOf(db.chats, userId)|
    ensures r.Ok? ==> forall i :: 0 <= i < |r.value| ==> r.value[i].chat == NewestFirst(ChatsOf(db.chats, userId))[i]
    ensures r.Ok? ==> forall i, j :: 0 <= i < j < |r.value| ==> r.value[i].chat.updatedAt >= r.value[j].chat.updatedAt
    ensures r.Ok? ==> forall i :: 0 <= i < |r.value| ==>
      && userId in r.value[i].chat.recipients
      && r.value[i].members == Members(db.users, r.value[i].chat.recipients)
      && |r.value[i].members| >= 2
      && r.value[i].recipient == OtherParty(r.value[i].members, userId)
  {
    var found := ChatsOf(db.chats, userId);
    var mine := NewestFirst(found);
    ShortAnyOrder(db.users, found, mine);
    SortedChatsOf(db.chats, userId);
    ListChats(db.users, mine, userId)
  }

  /** Two existing users populate to themselves. */
  lemma BothMembers(users: seq<User>, u: UserId, v: UserId)
    requires UserExists(users, u) && UserExists(users, v)
    ensures Members(users, [u, v]) == [u, v]
  {
    var rs := [u, v];
    assert rs[1..] == [v] && rs[1..][1..] == [];
    assert Filter(rs[1..], Known(users)) == [v];
  }

  /** A conversation saved after all others goes first in the sorted list. */
  lemma {:induction false} NewestFirstSnoc(chats: seq<Chat>, c: Chat)
    requires forall i :: 0 <= i < |chats| ==> chats[i].updatedAt < c.updatedAt
    ensures NewestFirst(chats + [c]) == [c] + NewestFirst(chats)
  {
    var all := chats + [c];
    if |chats| == 0 {
      assert all == [c] && all[1..] == [];
    } else {
      assert all[0] == chats[0] && all[1..] == chats[1..] + [c];
      NewestFirstSnoc(chats[1..], c);
      var rest := NewestFirst(chats[1..]);
      assert ([c] + rest)[0] == c && ([c] + rest)[1..] == rest;
    }
  }

  /** A conversation with two populated members appended to a list neither
      makes nor mends a failing listing. */
  lemma ShortSnoc(users: seq<User>, chats: seq<Chat>, c: Chat)
    requires |Members(users, c.recipients)| >= 2
    ensures SomeChatShort(users, chats + [c]) <==> SomeChatShort(users, chats)
  {
    var all := chats + [c];
    if SomeChatShort(users, all) {
      var i :| 0 <= i < |all| && |Members(users, all[i].recipients)| < 2;
      assert i < |chats| && all[i] == chats[i];
    }
    if SomeChatShort(users, chats) {
      var i :| 0 <= i < |chats| && |Members(users, chats[i].recipients)| < 2;
      assert all[i] == chats[i];
    }
  }

  /** Listing a conversation ahead of others puts its view ahead of theirs. */
  lemma ViewsCons(users: seq<User>, c: Chat, chats: seq<Chat>, userId: UserId)
    requires |Members(users, c.recipients)| >= 2
    requires forall i :: 0 <= i < |chats| ==> |Members(users, chats[i].recipients)| >= 2
    ensures var ms := Members(users, c.recipients);
      Views(users, [c] + chats, userId) == [ChatView(c, ms, OtherParty(ms, userId))] + Views(users, chats, userId)
  {
    assert ([c] + chats)[0] == c && ([c] + chats)[1..] == chats;
  }

  /** A successful listing is the view of each of the user's conversations
      in sorted order. */
  lemma GetChatsViews(db: Store, userId: UserId)
    requires GetChats(db, userId).Ok?
    ensures var mine := NewestFirst(ChatsOf(db.chats, userId));
      && (forall i :: 0 <= i < |mine| ==> |Members(db.users, mine[i].recipients)| >= 2)
      && GetChats(db, userId).value == Views(db.users, mine, userId)
  {
  }

  /** Every conversation listed for `userId` was last saved before `now`
      when all of that user's conversations were. */
  lemma ChatsOfBefore(chats: seq<Chat>, userId: UserId, now: nat)
    requires forall i :: 0 <= i < |chats| && userId in chats[i].recipients ==> chats[i].updatedAt < now
    ensures forall i :: 0 <= i < |ChatsOf(chats, userId)| ==> ChatsOf(chats, userId)[i].updatedAt < now
  {
    var found := ChatsOf(chats, userId);
    forall i | 0 <= i < |found| ensures found[i].updatedAt < now {
      var j :| 0 <= j < |chats| && chats[j] == found[i];
    }
  }

  /** A conversation newer than all of a user's others, appended with both
      parties as members, heads that user's listing. */
  lemma ListingGainsHead(db: Store, after: Store, userId: UserId, recipientId: UserId, c: Chat)
    requires after.users == db.users && userId != recipientId
    requires ChatsOf(after.chats, userId) == ChatsOf(db.chats, userId) + [c]
    requires c.recipients == [userId, recipientId]
    requires Members(db.users, [userId, recipientId]) == [userId, recipientId]
    requires forall i :: 0 <= i < |ChatsOf(db.chats, userId)| ==> ChatsOf(db.chats, userId)[i].updatedAt < c.updatedAt
    ensures GetChats(after, userId).Ok? <==> GetChats(db, userId).Ok?
    ensures GetChats(after, userId).Ok? ==>
      GetChats(after, userId).value == [ChatView(c, [userId, recipientId], Some(recipientId))] + GetChats(db, userId).value
  {
    var found := ChatsOf(db.chats, userId);
    ShortSnoc(db.users, found, c);
    NewestFirstSnoc(found, c);
    if GetChats(db, userId).Ok? {
      GetChatsViews(db, userId);
      GetChatsViews(after, userId);
      ViewsCons(db.users, c, NewestFirst(found), userId);
    }
  }

  /** After a first message between two distinct existing users, when the
      user's other conversations were all last saved before now, the new
      conversation heads the sender's listing, with both users as members
      and the recipient as the other party; the listing fails afterwards
      exactly when it failed before. */
  lemma NewChatListsRecipient(db: Store, userId: UserId, recipientId: UserId, content: string,
                              now: nat, newChatId: ChatId)
    requires !ChatExists(db.chats, newChatId)
    requires userId != recipientId && UserExists(db.users, userId)
    requires ChatBetween(db.chats, userId, recipientId).None?
    requires forall i :: 0 <= i < |db.chats| && userId in db.chats[i].recipients ==> db.chats[i].updatedAt < now
    requires SendMessage(db, userId, recipientId, content, now, newChatId).result.Ok?
    ensures var after := SendMessage(db, userId, recipientId, content, now, newChatId).db;
            var c := Chat(newChatId, [userId, recipientId], Some(now), now);
            && ChatsOf(after.chats, userId) == ChatsOf(db.chats, userId) + [c]
            && (GetChats(after, userId).Ok? <==> GetChats(db, userId).Ok?)
            && (GetChats(after, userId).Ok? ==>
                  GetChats(after, userId).value ==
                  [ChatView(c, [userId, recipientId], Some(recipientId))] + GetChats(db, userId).value)
  {
    var after := SendMessage(db, userId, recipientId, content, now, newChatId).db;
    var c := Chat(newChatId, [userId, recipientId], Some(now), now);
    assert after.chats == db.chats + [c] && after.users == db.users;
    FilterSnoc(db.chats, c, HasRecipient(userId));
    ChatsOfBefore(db.chats, userId, now);
    BothMembers(db.users, userId, recipientId);
    ListingGainsHead(db, after, userId, recipientId, c);
  }

  /** Messaging oneself joins the first conversation one is part of, since
      `$all` with a repeated id only asks for that id. */
  lemma SelfMessageJoinsExistingChat(db: Store, userId: UserId, content: string, now: nat, newChatId: ChatId)
    requires !ChatExists(db.chats, newChatId)
    requires |db.chats| > 0 && userId in db.chats[0].recipients
    requires UserExists(db.users, userId) && content != ""
    ensures SendMessage(db, userId, userId, content, now, newChatId).db.messages ==
            db.messages + [Message(db.chats[0].id, userId, content)]
  {
  }
}

=== FILE: models.dfy ===
/** The document shapes of the database collections, their declared field
    constraints (as predicates) and their declared defaults. */
module Models {
  import opened Wrappers
  import opened Seqs

  // Ids stand for database ObjectIds: opaque, compared only for equality.
  type UserId = nat
  type PostId = nat
  type CommentId = nat
  type ChatId = nat

  datatype User = User(
    id: UserId,
    username: string,
    email: string,
    password: string,   // always the stored hash, never the plaintext
    biography: string,
    isAdmin: bool,
    role: string)

  datatype Post = Post(
    poster: UserId,
    title: string,
    content: string,
    likeCount: int,     // denormalised: number of likes of this post
    commentCount: int,  // denormalised: number of comments on this post
    edited: bool,
    promoted: bool)

  /** A comment; `parent` is absent for a root comment. The schema's
      `children` array is never stored, so it is not part of the document. */
  datatype Comment = Comment(
    commenter: UserId,
    post: PostId,
    content: string,
    parent: Option<CommentId>,
    edited: bool)

  datatype PostLike = PostLike(postId: PostId, userId: UserId)

  /** A conversation. `updatedAt` is the schema's automatic timestamp: set
      when the document is created and again whenever it is saved. */
  datatype Chat = Chat(id: ChatId, recipients: seq<UserId>, lastMessageAt: Option<nat>, updatedAt: nat)

  datatype Message = Message(conversation: ChatId, sender: UserId, content: string)

  /** A post as a listing returns it: `poster` is the populated poster
      document (`None` when the populate found no user), whose shape `P`
      depends on the populate's field selection, and `liked` is the mark the
      listings add for the viewer. */
  datatype PostView<P> = PostView(id: PostId, post: Post, poster: Option<P>, liked: bool)

  /** A user document without its password, as `select("-password")` and
      `populate(path, "-password")` return it. */
  datatype PublicUser = PublicUser(id: UserId, username: string, email: string, biography: string,
                                   isAdmin: bool, role: string)

  function Public(u: User): PublicUser
  {
    PublicUser(u.id, u.username, u.email, u.biography, u.isAdmin, u.role)
  }

  const UsernameMinLength: nat := 6
  const UsernameMaxLength: nat := 30
  const PasswordMinLength: nat := 8
  const BiographyMaxLength: nat := 250
  const TitleMaxLength: nat := 80
  const ContentMaxLength: nat := 8000
  const DefaultRole: string := "User"
  const Roles: set<string> := {"Moderator", "User", "Promoter"}

  // The leading words of the database's validation error messages.
  const UserValidationFailed: string := "user validation failed"
  const PostValidationFailed: string := "post validation failed"
  const CommentValidationFailed: string := "comment validation failed"
  const MessageValidationFailed: string := "message validation failed"

  /** The user schema's validators; `isEmail` is the validator library's
      e-mail check. The `unique` indexes are a property of the whole
      collection, see `UsersUnique` in the store. Every length is a
      JavaScript length, counted in UTF-16 code units. */
  predicate UserValid(u: User, isEmail: string -> bool)
  {
    && UsernameMinLength <= JsLength(u.username) <= UsernameMaxLength
    && ' ' !in u.username
    && u.email != "" && isEmail(u.email)
    && JsLength(u.password) >= PasswordMinLength
    && JsLength(u.biography) <= BiographyMaxLength
    && u.role in Roles
  }

  /** The post schema's validators: a required string must be non-empty,
      and the length limits count UTF-16 code units.
      The required `poster` is always present by its type. */
  predicate PostValid(p: Post)
  {
    && 0 < JsLength(p.title) <= TitleMaxLength
    && 0 < JsLength(p.content) <= ContentMaxLength
  }

  /** The comment schema's validators: `content` is required; `commenter`
      and `post` are present by their types, `parent` is optional. */
  predicate CommentValid(c: Comment)
  {
    c.content != ""
  }

  /** The message schema's validators. */
  predicate MessageValid(m: Message)
  {
    m.content != ""
  }

  /** The ownership check `owner !== userId && !isAdmin` passes, with the
      ids compared as the check evidently means (see `AuthorisedAsWritten`
      for how the source evaluates it). */
  predicate Authorised(owner: UserId, userId: UserId, isAdmin: bool)
  {
    owner == userId || isAdmin
  }

  /** The ownership check as the source evaluates it. `owner !== userId`
      compares a database ObjectId with the token's string id; `!==` never
      finds values of different types equal, so only `isAdmin` decides. */
  predicate AuthorisedAsWritten(owner: UserId, userId: UserId, isAdmin: bool)
  {
    isAdmin
  }

  /** As written, a non-administrator is refused even on their own record,
      which the intended check lets through; for administrators the two
      checks agree. */
  lemma OwnerRefusedAsWritten(owner: UserId, isAdmin: bool)
    ensures !isAdmin ==> !AuthorisedAsWritten(owner, owner, isAdmin) && Authorised(owner, owner, isAdmin)
    ensures forall u :: isAdmin ==> AuthorisedAsWritten(owner, u, isAdmin) && Authorised(owner, u, isAdmin)
  {
  }

  /** A new post with the schema's defaults. */
  function NewPost(poster: UserId, title: string, content: string): Post
  {
    Post(poster, title, content, 0, 0, false, false)
  }

  /** A new comment with the schema's default `edited`. */
  function NewComment(commenter: UserId, post: PostId, content: string, parent: Option<CommentId>): Comment
  {
    Comment(commenter, post, content, parent, false)
  }

  /** A new user with the schema's defaults: an empty biography and, when no
      role is given, the role "User". */
  function NewUser(id: UserId, username: string, email: string, password: string,
                   role: Option<string>, isAdmin: bool): User
  {
    User(id, username, email, password, "", isAdmin, if role.Some? then role.value else DefaultRole)
  }

  /** The comment schema's pre-save hook: non-empty content goes through the
      profanity filter `clean` before it is stored. */
  function SavedContent(content: string, clean: string -> string): string
  {
    if |content| > 0 then clean(content) else content
  }
}

=== FILE: paginate.dfy ===
/** The 1-based pagination helper shared by the post and like listings. */
module Paginate {

  function Min(a: int, b: int): int
  {
    if a <= b then a else b
  }

  /** How `Array.prototype.slice` reads one of its bounds: a negative index
      counts back from the end, and the result is clipped to `[0, len]`. */
  function RelativeIndex(k: int, len: nat): (r: nat)
    ensures r <= len
    ensures 0 <= k ==> r == Min(k, len)
    ensures k < 0 ==> r == if len + k < 0 then 0 else len + k
  {
    if k < 0 then (if len + k < 0 then 0 else len + k)
    else if k < len then k
    else len
  }

  /** `Array.prototype.slice(start, end)`: a fresh array, the input is untouched. */
  function Slice<T>(xs: seq<T>, start: int, end: int): seq<T>
  {
    var from := RelativeIndex(start, |xs|);
    var to := RelativeIndex(end, |xs|);
    if from < to then xs[from..to] else []
  }

  /** Page `pageNumber` (counted from 1) of `pageSize` elements of `xs`. */
  function Paginate<T>(xs: seq<T>, pageSize: nat, pageNumber: int): (r: seq<T>)
    ensures |r| <= pageSize
    ensures 1 <= pageNumber ==>
      r == xs[Min((pageNumber - 1) * pageSize, |xs|)..Min(pageNumber * pageSize, |xs|)]
    ensures 1 <= pageNumber && |xs| <= (pageNumber - 1) * pageSize ==> r == []
  {
    var start := (pageNumber - 1) * pageSize;
    var end := pageNumber * pageSize;
    PageBounds(pageNumber, pageSize);
    SliceWithin(xs, start, end);
    Slice(xs, start, end)
  }

  lemma PageBounds(pageNumber: int, pageSize: nat)
    ensures pageNumber * pageSize == (pageNumber - 1) * pageSize + pageSize
    ensures 1 <= pageNumber ==> 0 <= (pageNumber - 1) * pageSize
  {
  }

  /** A slice is never longer than the distance between its bounds. */
  lemma SliceWithin<T>(xs: seq<T>, start: int, end: int)
    requires start <= end
    ensures |Slice(xs, start, end)| <= end - start
  {
  }

  /** Whatever the page number, a page is one contiguous run of `xs`. */
  lemma PageIsContiguous<T>(xs: seq<T>, pageSize: nat, pageNumber: int) returns (k: nat)
    ensures k + |Paginate(xs, pageSize, pageNumber)| <= |xs|
    ensures Paginate(xs, pageSize, pageNumber) == xs[k..k + |Paginate(xs, pageSize, pageNumber)|]
  {
    var from := RelativeIndex((pageNumber - 1) * pageSize, |xs|);
    var to := RelativeIndex(pageNumber * pageSize, |xs|);
    k := if from < to then from else 0;
  }

  /** Pages `1..k` laid end to end. */
  function Pages<T>(xs: seq<T>, pageSize: nat, k: nat): seq<T>
  {
    if k == 0 then [] else Pages(xs, pageSize, k - 1) + Paginate(xs, pageSize, k)
  }

  /** Reading pages `1..k` in turn yields the first `min(k * pageSize, |xs|)`
      elements: nothing is skipped and nothing is repeated. */
  lemma {:induction false} PagesArePrefix<T>(xs: seq<T>, pageSize: nat, k: nat)
    ensures Pages(xs, pageSize, k) == xs[..Min(k * pageSize, |xs|)]
  {
    if k > 0 {
      PagesArePrefix(xs, pageSize, k - 1);
      PageBounds(k, pageSize);
      var a := Min((k - 1) * pageSize, |xs|);
      var b := Min(k * pageSize, |xs|);
      PrefixThenRun(xs, a, b);
    }
  }

  lemma PrefixThenRun<T>(xs: seq<T>, a: nat, b: nat)
    requires a <= b <= |xs|
    ensures xs[..a] + xs[a..b] == xs[..b]
  {
  }

  /** Every element is on the page its index falls on. */
  lemma OnItsPage<T>(xs: seq<T>, pageSize: nat, m: nat)
    requires 0 < pageSize && m < |xs|
    ensures xs[m] in Paginate(xs, pageSize, m / pageSize + 1)
  {
    var page := m / pageSize + 1;
    IndexWithinPage(m, pageSize);
    var lo := (page - 1) * pageSize;
    var hi := page * pageSize;
    InSlice(xs, lo, Min(hi, |xs|), m);
  }

  /** Index `m` lies on page `m / pageSize + 1`. */
  lemma IndexWithinPage(m: nat, pageSize: nat)
    requires 0 < pageSize
    ensures var page := m / pageSize + 1;
            (page - 1) * pageSize <= m < page * pageSize
  {
    var q := m / pageSize;
    assert m == q * pageSize + m % pageSize;
    assert (q + 1) * pageSize == q * pageSize + pageSize;
  }

  /** An index inside a slice's bounds names an element of the slice. */
  lemma InSlice<T>(xs: seq<T>, lo: int, hi: int, m: nat)
    requires 0 <= lo <= m < hi <= |xs|
    ensures xs[m] in xs[lo..hi]
  {
    assert xs[lo..hi][m - lo] == xs[m];
  }
}

=== FILE: posts.dfy ===
/** The post handlers: creation behind the posting cooldown, update,
    deletion with its cascades, and the filtered, paginated listing. */
module Posts {
  import opened Wrappers
  import opened Models
  import opened Seqs
  import opened Store
  import opened Cooldown
  import opened Paginate
  import opened Likes

  const InsufficientPostData: string := "Insufficient data to create a post"
  const PostCooldownActive: string := "Cannot post again. Please wait for some time"
  const UpdatePostDenied: string := "Permission denied to update the post"
  const DeletePostDenied: string := "Permission denied to delete the post"
  /** The runtime's TypeError when the author filter reads the username of
      a poster that populated to `null`. */
  const NullUsername: string := "Cannot read properties of null (reading 'username')"

  /** `createPost`: title and content are required before the gate is
      consulted; the poster is marked before the document is created, so a
      creation that fails validation still costs the cooldown. */
  function CreatePost(db: Store, gate: Gate, now: nat, title: string, content: string,
                      userId: UserId, newId: PostId): (r: Guarded<Reply<PostId>>)
    requires newId !in db.posts
    ensures title == "" || content == "" ==> r == Guarded(Reply(Err(InsufficientPostData), db), gate)
    ensures title != "" && content != "" && Marked(gate, userId) ==>
      r == Guarded(Reply(Err(PostCooldownActive), db), gate)
    ensures title != "" && content != "" && !Marked(gate, userId) ==>
      r.gate == TryAcquire(gate, userId, now).gate && Marked(r.gate, userId)
    ensures r.reply.result.Ok? <==>
      title != "" && content != "" && !Marked(gate, userId) &&
      JsLength(title) <= TitleMaxLength && JsLength(content) <= ContentMaxLength
    ensures r.reply.result.Err? ==> r.reply.db == db
    ensures r.reply.result.Ok? ==>
      && r.reply.result.value == newId
      && r.reply.db == db.(posts := db.posts[newId := Post(userId, title, content, 0, 0, false, false)])
  {
    if title == "" || content == "" then Guarded(Reply(Err(InsufficientPostData), db), gate)
    else
      var a := TryAcquire(gate, userId, now);
      if !a.granted then Guarded(Reply(Err(PostCooldownActive), db), gate)
      else
        var post := NewPost(userId, title, content);
        if !PostValid(post) then Guarded(Reply(Err(PostValidationFailed), db), a.gate)
        else Guarded(Reply(Ok(newId), db.(posts := db.posts[newId := post])), a.gate)
  }

  /** A created post starts with counters that match its (empty) recounts. */
  lemma CreatePostKeepsConsistent(db: Store, gate: Gate, now: nat, title: string, content: string,
                                  userId: UserId, newId: PostId)
    requires newId !in db.posts
    requires Consistent(db)
    ensures Consistent(CreatePost(db, gate, now, title, content, userId, newId).reply.db)
  {
    var r := CreatePost(db, gate, now, title, content, userId, newId);
    if r.reply.result.Ok? {
      CommentCountNone(db.comments, newId);
      LikeCountNone(db.likes, newId);
    }
  }

  /** After a post is created, the same user's next attempt is refused
      until the gate's timers have fired. */
  lemma SecondPostRefused(db: Store, gate: Gate, now: nat, title: string, content: string,
                          userId: UserId, newId: PostId,
                          later: nat, title2: string, content2: string, newId2: PostId)
    requires newId !in db.posts
    requires CreatePost(db, gate, now, title, content, userId, newId).reply.result.Ok?
    requires title2 != "" && content2 != ""
    requires newId2 !in CreatePost(db, gate, now, title, content, userId, newId).reply.db.posts
    ensures var first := CreatePost(db, gate, now, title, content, userId, newId);
            CreatePost(first.reply.db, first.gate, later, title2, content2, userId, newId2).reply.result
              == Err(PostCooldownActive)
  {
  }

  /** A title of 41 emoji has 41 characters but 82 UTF-16 code units, so it
      is over the 80-unit limit: creation fails after the gate mark. */
  lemma WideTitleRefused(db: Store, gate: Gate, now: nat, userId: UserId, newId: PostId)
    requires newId !in db.posts
    requires !Marked(gate, userId)
    ensures var title := seq(41, _ => '\U{1F600}');
            var r := CreatePost(db, gate, now, title, "x", userId, newId);
            |title| <= TitleMaxLength && r.reply == Reply(Err(PostValidationFailed), db) && Marked(r.gate, userId)
  {
    var title := seq(41, _ => '\U{1F600}');
    JsLengthAstral(title);
  }

  /** `updatePost`: only the poster or an administrator may change the
      content; the changed post is validated when it is saved. */
  function UpdatePost(db: Store, postId: PostId, userId: UserId, isAdmin: bool, content: string): (r: Reply<Post>)
    ensures postId !in db.posts ==> r == Reply(Err(PostNotFound), db)
    ensures postId in db.posts && !Authorised(db.posts[postId].poster, userId, isAdmin) ==>
      r == Reply(Err(UpdatePostDenied), db)
    ensures r.result.Ok? <==>
      postId in db.posts && Authorised(db.posts[postId].poster, userId, isAdmin) &&
      0 < JsLength(content) <= ContentMaxLength && 0 < JsLength(db.posts[postId].title) <= TitleMaxLength
    ensures r.result.Err? ==> r.db == db
    ensures r.result.Ok? ==>
      && r.result.value == db.posts[postId].(content := content, edited := true)
      && r.db == db.(posts := db.posts[postId := r.result.value])
  {
    if postId !in db.posts then Reply(Err(PostNotFound), db)
    else
      var post := db.posts[postId];
      if !Authorised(post.poster, userId, isAdmin) then Reply(Err(UpdatePostDenied), db)
      else
        var edited := post.(content := content, edited := true);
        if !PostValid(edited) then Reply(Err(PostValidationFailed), db)
        else Reply(Ok(edited), db.(posts := db.posts[postId := edited]))
  }

  lemma UpdatePostKeepsConsistent(db: Store, postId: PostId, userId: UserId, isAdmin: bool, content: string)
    requires Consistent(db)
    ensures Consistent(UpdatePost(db, postId, userId, isAdmin, content).db)
  {
  }

  /** `deletePost`: removing the post fires its pre-remove hook, which
      deletes the post's likes; then every comment on the post is deleted. */
  function DeletePost(db: Store, postId: PostId, userId: UserId, isAdmin: bool): (r: Reply<Post>)
    ensures postId !in db.posts ==> r == Reply(Err(PostNotFound), db)
    ensures postId in db.posts && !Authorised(db.posts[postId].poster, userId, isAdmin) ==>
      r == Reply(Err(DeletePostDenied), db)
    ensures r.result.Ok? <==> postId in db.posts && Authorised(db.posts[postId].poster, userId, isAdmin)
    ensures r.result.Ok? ==>
      && r.result.value == db.posts[postId]
      && r.db.posts == db.posts - {postId}
      && (forall c :: c in r.db.comments <==> c in db.comments && db.comments[c].post != postId)
      && (forall c :: c in r.db.comments ==> r.db.comments[c] == db.comments[c])
      && (forall i :: 0 <= i < |r.db.likes| ==> r.db.likes[i].postId != postId && r.db.likes[i] in db.likes)
      && (forall i :: 0 <= i < |db.likes| && db.likes[i].postId != postId ==> db.likes[i] in r.db.likes)
      && r.db.likes == Filter(db.likes, OffPost(postId))
      && r.db.users == db.users && r.db.chats == db.chats && r.db.messages == db.messages
  {
    if postId !in db.posts then Reply(Err(PostNotFound), db)
    else
      var post := db.posts[postId];
      if !Authorised(post.poster, userId, isAdmin) then Reply(Err(DeletePostDenied), db)
      else
        LikesWithoutIsFilter(db.likes, postId);
        Reply(Ok(post), WithoutPost(db, postId))
  }

  /** The store once post `p`, its likes and its comments are gone. */
  function WithoutPost(db: Store, p: PostId): Store
  {
    db.(posts := db.posts - {p}, likes := LikesWithout(db.likes, p),
        comments := map c | c in db.comments && db.comments[c].post != p :: db.comments[c])
  }

  /** Every remaining post keeps its recounts when post `p` and everything
      that references it go. */
  lemma WithoutPostCountsExact(db: Store, p: PostId)
    requires CountsExact(db)
    ensures CountsExact(WithoutPost(db, p))
  {
    var after := WithoutPost(db, p);
    forall q | q in after.posts
      ensures after.posts[q].commentCount == CommentCount(after.comments, q)
      ensures after.posts[q].likeCount == LikeCount(after.likes, q)
    {
      assert CommentsOn(after.comments, q) == CommentsOn(db.comments, q);
      LikeCountWithout(db.likes, p, q);
    }
  }

  /** No remaining comment or like references a post that is gone. */
  lemma WithoutPostAttached(db: Store, p: PostId)
    requires Attached(db)
    ensures Attached(WithoutPost(db, p))
  {
    var after := WithoutPost(db, p);
    forall i | 0 <= i < |after.likes| ensures after.likes[i].postId in after.posts {
      var j :| 0 <= j < |db.likes| && db.likes[j] == after.likes[i];
    }
  }

  /** Removing a post together with everything that references it keeps a
      consistent store consistent. */
  lemma WithoutPostKeepsConsistent(db: Store, p: PostId)
    requires Consistent(db)
    ensures Consistent(WithoutPost(db, p))
  {
    WithoutPostCountsExact(db, p);
    WithoutPostAttached(db, p);
    assert ThreadsWellFormed(WithoutPost(db, p).comments);
  }

  /** Deleting a post leaves nothing that references it, and every other
      post keeps counters equal to its recounts. */
  lemma DeletePostKeepsConsistent(db: Store, postId: PostId, userId: UserId, isAdmin: bool)
    requires Consistent(db)
    ensures Consistent(DeletePost(db, postId, userId, isAdmin).db)
  {
    if DeletePost(db, postId, userId, isAdmin).result.Ok? {
      WithoutPostKeepsConsistent(db, postId);
    }
  }

  // ---------------------------------------------------------------------
  // getMultiplePosts
  // ---------------------------------------------------------------------

  /** A post as `getMultiplePosts` lists it: the poster is populated with
      `"-password"`, so the password is not part of it. */
  type ListedPost = PostView<PublicUser>

  datatype PostPage = PostPage(data: seq<ListedPost>, numberOfPosts: nat)

  /** The search filter: the query occurs in the title, ignoring case.
      An empty query means no search. */
  predicate TitleMatches(v: ListedPost, search: string)
  {
    search == "" || Includes(Lower(v.post.title), Lower(search))
  }

  /** The author filter: the populated poster's username is the query.
      An empty query means no author filter. */
  predicate ByAuthor(v: ListedPost, author: string)
  {
    author == "" || (v.poster.Some? && v.poster.value.username == author)
  }

  function Searched(views: seq<ListedPost>, search: string): (r: seq<ListedPost>)
  {
    if search == "" then views else Filter(views, (v: ListedPost) => TitleMatches(v, search))
  }

  /** The author filter reads `poster.username` of every searched post. */
  predicate PosterGone(views: seq<ListedPost>)
  {
    exists i :: 0 <= i < |views| && views[i].poster.None?
  }

  /** Both filters applied; only meaningful when the author filter cannot fail. */
  function Matching(views: seq<ListedPost>, search: string, author: string): seq<ListedPost>
  {
    var s := Searched(views, search);
    if author == "" then s else Filter(s, (v: ListedPost) => ByAuthor(v, author))
  }

  /** The page of matching posts a request asks for; no page means page 1. */
  function Shown(views: seq<ListedPost>, search: string, author: string, page: Option<int>): seq<ListedPost>
  {
    Paginate.Paginate(Matching(views, search, author), PageSize, if page.Some? then page.value else 1)
  }

  /** Every shown post satisfies both filters and is one of the listed posts. */
  lemma ShownFromViews(views: seq<ListedPost>, search: string, author: string, page: Option<int>)
    ensures forall i :: 0 <= i < |Shown(views, search, author, page)| ==>
      var v := Shown(views, search, author, page)[i];
      TitleMatches(v, search) && ByAuthor(v, author) && v in views
  {
    forall i | 0 <= i < |Shown(views, search, author, page)| {
      ShownPasses(views, search, author, page, i);
    }
  }

  /** One shown post passes both filters and is one of the listed posts. */
  lemma ShownPasses(views: seq<ListedPost>, search: string, author: string, page: Option<int>, i: nat)
    requires i < |Shown(views, search, author, page)|
    ensures var v := Shown(views, search, author, page)[i];
      TitleMatches(v, search) && ByAuthor(v, author) && v in views
  {
    var matching := Matching(views, search, author);
    var k := PageIsContiguous(matching, PageSize, if page.Some? then page.value else 1);
    assert Shown(views, search, author, page)[i] == matching[k + i];
    MatchingPasses(views, search, author, k + i);
  }

  /** Every matching post passes both filters and is one of the listed posts. */
  lemma MatchingPasses(views: seq<ListedPost>, search: string, author: string, j: nat)
    requires j < |Matching(views, search, author)|
    ensures var v := Matching(views, search, author)[j];
      TitleMatches(v, search) && ByAuthor(v, author) && v in views
  {
    var s := Searched(views, search);
    var v := Matching(views, search, author)[j];
    assert v in s;
    if search != "" {
      assert v in views;
    }
  }

  /** `getMultiplePosts` over the listing the database returns (`views`,
      already populated and sorted): search, author filter, count, page of
      ten (page 1 by default), and the viewer's like marks. */
  function MultiplePosts(views: seq<ListedPost>, search: string, author: string, page: Option<int>,
                         likes: seq<PostLike>, viewer: Option<UserId>): (r: Result<PostPage>)
    ensures r.Err? <==> author != "" && PosterGone(Searched(views, search))
    ensures r.Err? ==> r.msg == NullUsername
    ensures r.Ok? ==> r.value.numberOfPosts == |Matching(views, search, author)|
    ensures r.Ok? ==> |r.value.data| <= PageSize
    ensures r.Ok? ==> |r.value.data| == |Shown(views, search, author, page)|
    ensures r.Ok? ==> forall i :: 0 <= i < |r.value.data| ==>
      r.value.data[i].(liked := Shown(views, search, author, page)[i].liked) == Shown(views, search, author, page)[i]
    ensures r.Ok? && viewer.None? ==> r.value.data == Shown(views, search, author, page)
    ensures r.Ok? && viewer.Some? ==> forall i :: 0 <= i < |r.value.data| ==>
      (r.value.data[i].liked <==>
         Shown(views, search, author, page)[i].liked || HasLike(likes, r.value.data[i].id, viewer.value))
  {
    if author != "" && PosterGone(Searched(views, search)) then Err(NullUsername)
    else
      var shown := Shown(views, search, author, page);
      var data := if viewer.Some? then MarkAsLiked(shown, likes, viewer) else shown;
      Ok(PostPage(data, |Matching(views, search, author)|))
  }

  /** Every post that passes both filters is on some page of the listing. */
  lemma EveryMatchIsListed(views: seq<ListedPost>, search: string, author: string, k: nat)
    requires k < |views|
    requires TitleMatches(views[k], search) && ByAuthor(views[k], author)
    requires !(author != "" && PosterGone(Searched(views, search)))
    ensures exists page: nat ::
      1 <= page && views[k] in MultiplePosts(views, search, author, Some(page), [], None).value.data
  {
    var m := MatchIsMatching(views, search, author, k);
    OnItsPage(Matching(views, search, author), PageSize, m);
    var page: nat := m / PageSize + 1;
    assert views[k] in MultiplePosts(views, search, author, Some(page), [], None).value.data;
  }

  /** A post that passes both filters has a position among the matching posts. */
  lemma MatchIsMatching(views: seq<ListedPost>, search: string, author: string, k: nat) returns (m: nat)
    requires k < |views|
    requires TitleMatches(views[k], search) && ByAuthor(views[k], author)
    ensures m < |Matching(views, search, author)| && Matching(views, search, author)[m] == views[k]
  {
    var searched := Searched(views, search);
    assert views[k] in searched;
    var j :| 0 <= j < |searched| && searched[j] == views[k];
    var matching := Matching(views, search, author);
    assert views[k] in matching;
    m :| 0 <= m < |matching| && matching[m] == views[k];
  }

  lemma {:induction false} FilterAgrees<T>(xs: seq<T>, p: T -> bool, q: T -> bool)
    requires forall i :: 0 <= i < |xs| ==> p(xs[i]) == q(xs[i])
    ensures Filter(xs, p) == Filter(xs, q)
  {
    if |xs| > 0 {
      FilterAgrees(xs[1..], p, q);
    }
  }

  /** The search ignores the case of the query. */
  lemma SearchIgnoresCase(views: seq<ListedPost>, search: string, author: string, page: Option<int>,
                          likes: seq<PostLike>, viewer: Option<UserId>)
    ensures MultiplePosts(views, Lower(search), author, page, likes, viewer) ==
            MultiplePosts(views, search, author, page, likes, viewer)
  {
    LowerIdempotent(search);
    assert (search == "") == (Lower(search) == "");
    FilterAgrees(views, (v: ListedPost) => TitleMatches(v, Lower(search)), (v: ListedPost) => TitleMatches(v, search));
    assert Searched(views, Lower(search)) == Searched(views, search);
  }
}

=== FILE: seqs.dfy ===
/** Sequence helpers standing in for the JavaScript array methods and the
    first-match semantics of the database's `findOne`. */
module Seqs {
  import opened Wrappers

  /** Index of the first element satisfying `p`: the document a `findOne`
      returns when the collection is scanned in natural (insertion) order. */
  function FindFirst<T>(xs: seq<T>, p: T -> bool): (r: Option<nat>)
    ensures r.Some? ==> r.value < |xs| && p(xs[r.value])
    ensures r.Some? ==> forall j :: 0 <= j < r.value ==> !p(xs[j])
    ensures r.None? ==> forall j :: 0 <= j < |xs| ==> !p(xs[j])
  {
    if |xs| == 0 then None
    else if p(xs[0]) then Some(0)
    else
      match FindFirst(xs[1..], p)
      case None => None
      case Some(k) => Some(k + 1)
  }

  /** Sequences that agree on the predicate position by position have their
      first match at the same position. */
  lemma FindFirstSamePositions<T, U>(xs: seq<T>, p: T -> bool, ys: seq<U>, q: U -> bool)
    requires |xs| == |ys|
    requires forall i :: 0 <= i < |xs| ==> p(xs[i]) == q(ys[i])
    ensures FindFirst(xs, p) == FindFirst(ys, q)
  {
  }

  /** An element appended after elements that all fail `p` is the first match. */
  lemma FindFirstAppended<T>(xs: seq<T>, x: T, p: T -> bool)
    requires p(x)
    requires forall j :: 0 <= j < |xs| ==> !p(xs[j])
    ensures FindFirst(xs + [x], p) == Some(|xs|)
  {
    var ys := xs + [x];
    assert ys[|xs|] == x;
    assert forall j :: 0 <= j < |xs| ==> ys[j] == xs[j];
  }

  /** `xs` without the element at position `i`. */
  function RemoveAt<T>(xs: seq<T>, i: nat): (r: seq<T>)
    requires i < |xs|
    ensures |r| == |xs| - 1
    ensures forall k :: 0 <= k < i ==> r[k] == xs[k]
    ensures forall k :: i <= k < |r| ==> r[k] == xs[k + 1]
  {
    xs[..i] + xs[i + 1..]
  }

  /** `a` occurs in `b` in the same order, possibly with gaps. */
  ghost predicate IsSubsequence<T>(a: seq<T>, b: seq<T>)
    decreases |b|
  {
    |a| == 0 ||
    (|b| > 0 &&
     if a[0] == b[0] then IsSubsequence(a[1..], b[1..]) else IsSubsequence(a, b[1..]))
  }

  /** `Array.prototype.filter`: the elements satisfying `p`, in order. */
  function Filter<T>(xs: seq<T>, p: T -> bool): (r: seq<T>)
    ensures |r| <= |xs|
    ensures forall i :: 0 <= i < |r| ==> p(r[i]) && r[i] in xs
    ensures forall i :: 0 <= i < |xs| && p(xs[i]) ==> xs[i] in r
    ensures IsSubsequence(r, xs)
  {
    if |xs| == 0 then []
    else
      var rest := Filter(xs[1..], p);
      if p(xs[0]) then
        assert ([xs[0]] + rest)[1..] == rest;
        [xs[0]] + rest
      else
        assert |rest| > 0 ==> rest[0] != xs[0] by {
          if |rest| > 0 { assert rest[0] in rest; }
        }
        rest
  }

  /** The filter keeps every copy of a kept element and no copy of a dropped one. */
  lemma {:induction false} FilterCounts<T>(xs: seq<T>, p: T -> bool, x: T)
    ensures multiset(Filter(xs, p))[x] == if p(x) then multiset(xs)[x] else 0
  {
    if |xs| > 0 {
      assert xs == [xs[0]] + xs[1..];
      FilterCounts(xs[1..], p, x);
      if p(xs[0]) {
        assert Filter(xs, p) == [xs[0]] + Filter(xs[1..], p);
      }
    }
  }

  /** Filtering a sequence with one more element at the end yields the old
      result, followed by that element when it is kept. */
  lemma {:induction false} FilterSnoc<T>(xs: seq<T>, x: T, p: T -> bool)
    ensures Filter(xs + [x], p) == Filter(xs, p) + (if p(x) then [x] else [])
  {
    var ys := xs + [x];
    if |xs| == 0 {
      assert ys[1..] == [];
    } else {
      assert ys[0] == xs[0] && ys[1..] == xs[1..] + [x];
      FilterSnoc(xs[1..], x, p);
    }
  }

  /** `xs` newest-first when it is stored oldest-first. */
  function Reverse<T>(xs: seq<T>): (r: seq<T>)
    ensures |r| == |xs|
    ensures forall i :: 0 <= i < |xs| ==> r[i] == xs[|xs| - 1 - i]
  {
    if |xs| == 0 then [] else [xs[|xs| - 1]] + Reverse(xs[..|xs| - 1])
  }

  /** A query's `.limit(n)`: at most the first `n` elements. */
  function Take<T>(xs: seq<T>, n: nat): (r: seq<T>)
    ensures |r| <= n && |r| <= |xs|
    ensures |xs| <= n ==> r == xs
    ensures |xs| > n ==> |r| == n
    ensures forall i :: 0 <= i < |r| ==> r[i] == xs[i]
  {
    if |xs| <= n then xs else xs[..n]
  }

  /** `String.prototype.toLowerCase` on one character, for the ASCII letters. */
  function LowerChar(c: char): char
  {
    if 'A' <= c <= 'Z' then (c as int - 'A' as int + 'a' as int) as char else c
  }

  /** `String.prototype.toLowerCase`, character by character. */
  function Lower(s: string): (r: string)
    ensures |r| == |s|
    ensures forall i :: 0 <= i < |s| ==> r[i] == LowerChar(s[i])
  {
    seq(|s|, i requires 0 <= i < |s| => LowerChar(s[i]))
  }

  /** The UTF-16 code units of one character: a character outside the Basic
      Multilingual Plane is written as a surrogate pair. */
  function CodeUnits(c: char): nat
  {
    if c as int >= 0x1_0000 then 2 else 1
  }

  /** `String.prototype.length`: the string's UTF-16 code units, which is
      what the schema validators' `minlength` and `maxLength` compare. */
  function JsLength(s: string): (r: nat)
    ensures |s| <= r <= 2 * |s|
  {
    if s == [] then 0 else CodeUnits(s[0]) + JsLength(s[1..])
  }

  /** A string's JavaScript length is its number of characters exactly when
      every character lies in the Basic Multilingual Plane. */
  lemma {:induction false} JsLengthIsSizeIffBmp(s: string)
    ensures JsLength(s) == |s| <==> forall i :: 0 <= i < |s| ==> s[i] as int < 0x1_0000
  {
    if s != [] {
      JsLengthIsSizeIffBmp(s[1..]);
      assert forall i :: 1 <= i < |s| ==> s[i] == s[1..][i - 1];
    }
  }

  /** A string of characters outside the Basic Multilingual Plane is twice as
      long in JavaScript as it has characters. */
  lemma {:induction false} JsLengthAstral(s: string)
    requires forall i :: 0 <= i < |s| ==> s[i] as int >= 0x1_0000
    ensures JsLength(s) == 2 * |s|
  {
    if s != [] {
      assert forall i :: 0 <= i < |s| - 1 ==> s[1..][i] == s[i + 1];
      JsLengthAstral(s[1..]);
    }
  }

  /** `String.prototype.includes`: `needle` occurs in `hay` at some offset. */
  predicate Includes(hay: string, needle: string)
    decreases |hay|
  {
    (|needle| <= |hay| && hay[..|needle|] == needle) ||
    (|hay| > 0 && Includes(hay[1..], needle))
  }

  /** Lowercasing twice is lowercasing once. */
  lemma LowerIdempotent(s: string)
    ensures Lower(Lower(s)) == Lower(s)
  {
    forall i | 0 <= i < |s| ensures Lower(Lower(s))[i] == Lower(s)[i] {
      assert Lower(s)[i] == LowerChar(s[i]);
    }
  }

  /** `needle` occurring at offset `k` of `hay` is enough for `Includes`. */
  lemma {:induction false} IncludesAt(hay: string, needle: string, k: nat)
    requires k + |needle| <= |hay| && hay[k..k + |needle|] == needle
    ensures Includes(hay, needle)
    decreases k
  {
    if k > 0 {
      assert hay[1..][k - 1..k - 1 + |needle|] == hay[k..k + |needle|];
      IncludesAt(hay[1..], needle, k - 1);
    }
  }

  /** And `Includes` names such an offset. */
  lemma {:induction false} IncludesOffset(hay: string, needle: string) returns (k: nat)
    requires Includes(hay, needle)
    ensures k + |needle| <= |hay| && hay[k..k + |needle|] == needle
    decreases |hay|
  {
    if |needle| <= |hay| && hay[..|needle|] == needle {
      k := 0;
    } else {
      var j := IncludesOffset(hay[1..], needle);
      assert hay[1..][j..j + |needle|] == hay[j + 1..j + 1 + |needle|];
      k := j + 1;
    }
  }
}

=== FILE: store.dfy ===
/** The database as one immutable value, the recounts that define the
    denormalised counters, and the consistency invariant the handlers keep. */
module Store {
  import opened Wrappers
  import opened Models
  import opened Seqs

  /** Every collection the handlers touch. Collections that are read with
      `findOne` are sequences in natural (insertion) order, so "the first
      match" is well defined; posts and comments are only read by id or
      in full, so they are maps from id to document. */
  datatype Store = Store(
    users: seq<User>,
    posts: map<PostId, Post>,
    comments: map<CommentId, Comment>,
    likes: seq<PostLike>,
    chats: seq<Chat>,
    messages: seq<Message>)

  /** A handler's answer and the database after it. An error can come with
      a changed database when the handler failed after a write. */
  datatype Reply<T> = Reply(result: Result<T>, db: Store)

  /** `Comment.find({post: p})`. */
  function CommentsOn(cs: map<CommentId, Comment>, p: PostId): set<CommentId>
  {
    set c | c in cs && cs[c].post == p
  }

  /** The exact recount `(await Comment.find({post: p})).length`. */
  function CommentCount(cs: map<CommentId, Comment>, p: PostId): nat
  {
    |CommentsOn(cs, p)|
  }

  /** The exact recount `(await PostLike.find({postId: p})).length`. */
  function LikeCount(likes: seq<PostLike>, p: PostId): nat
  {
    if |likes| == 0 then 0
    else LikeCount(likes[..|likes| - 1], p) + (if likes[|likes| - 1].postId == p then 1 else 0)
  }

  /** What populating a user reference yields with no field selection: the
      whole document of the first user with that id, password included, or
      nothing when the user is gone. */
  function Poster(users: seq<User>, id: UserId): (r: Option<User>)
    ensures r.Some? <==> exists i :: 0 <= i < |users| && users[i].id == id
    ensures r.Some? ==>
      exists i :: (0 <= i < |users| && users[i].id == id &&
                   (forall j :: 0 <= j < i ==> users[j].id != id) && r.value == users[i])
  {
    match FindFirst(users, IdIs(id))
    case Some(i) => Some(users[i])
    case None => None
  }

  function IdIs(id: UserId): User -> bool
  {
    (u: User) => u.id == id
  }

  /** Which user a reference populates to does not depend on any password:
      changing one account's password changes only that field of the result. */
  lemma PosterIgnoresPassword(users: seq<User>, k: nat, password: string, id: UserId)
    requires k < |users|
    ensures var after := Poster(users[k := users[k].(password := password)], id);
      && (after.Some? <==> Poster(users, id).Some?)
      && (after.Some? ==> after.value == Poster(users, id).value.(password := after.value.password))
  {
    var users' := users[k := users[k].(password := password)];
    FindFirstSamePositions(users', IdIs(id), users, IdIs(id));
  }

  /** `PostLike.findOne({postId: p, userId: u})` finds something. */
  predicate HasLike(likes: seq<PostLike>, p: PostId, u: UserId)
  {
    PostLike(p, u) in likes
  }

  /** `PostLike.deleteMany({postId: p})`. */
  function LikesWithout(likes: seq<PostLike>, p: PostId): (r: seq<PostLike>)
    ensures forall i :: 0 <= i < |r| ==> r[i].postId != p && r[i] in likes
    ensures forall i :: 0 <= i < |likes| && likes[i].postId != p ==> likes[i] in r
    ensures forall l :: multiset(r)[l] == if l.postId != p then multiset(likes)[l] else 0
  {
    if |likes| == 0 then []
    else
      var rest := LikesWithout(likes[..|likes| - 1], p);
      var last := likes[|likes| - 1];
      assert likes == likes[..|likes| - 1] + [last];
      assert forall l :: l in likes[..|likes| - 1] ==> l in likes;
      assert forall i :: 0 <= i < |likes| - 1 ==> likes[i] == likes[..|likes| - 1][i];
      if last.postId == p then rest else rest + [last]
  }

  /** The likes that stay when post `p` goes. */
  function OffPost(p: PostId): PostLike -> bool
  {
    (l: PostLike) => l.postId != p
  }

  /** The deletion keeps the other posts' likes in their stored order: it
      is the filter that drops the likes of `p`. */
  lemma {:induction false} LikesWithoutIsFilter(likes: seq<PostLike>, p: PostId)
    ensures LikesWithout(likes, p) == Filter(likes, OffPost(p))
  {
    if |likes| > 0 {
      var front := likes[..|likes| - 1];
      var last := likes[|likes| - 1];
      assert likes == front + [last];
      var keep := OffPost(p);
      var tail := if last.postId != p then [last] else [];
      assert LikesWithout(likes, p) == LikesWithout(front, p) + tail;
      LikesWithoutIsFilter(front, p);
      FilterSnoc(front, last, keep);
      assert keep(last) == (last.postId != p);
    }
  }

  /** Every post's counters equal the recounts of the records that reference it. */
  ghost predicate CountsExact(s: Store)
  {
    forall p :: p in s.posts ==>
      s.posts[p].commentCount == CommentCount(s.comments, p) &&
      s.posts[p].likeCount == LikeCount(s.likes, p)
  }

  /** Every comment and every like references an existing post. */
  ghost predicate Attached(s: Store)
  {
    && (forall c :: c in s.comments ==> s.comments[c].post in s.posts)
    && (forall i :: 0 <= i < |s.likes| ==> s.likes[i].postId in s.posts)
  }

  /** A reply's parent exists and sits on the same post as the reply. */
  ghost predicate ThreadsWellFormed(cs: map<CommentId, Comment>)
  {
    forall c :: c in cs && cs[c].parent.Some? ==>
      cs[c].parent.value in cs && cs[cs[c].parent.value].post == cs[c].post
  }

  /** The invariant the design promises: exact counters, no dangling
      references, and comment threads that stay within one post. */
  ghost predicate Consistent(s: Store)
  {
    CountsExact(s) && Attached(s) && ThreadsWellFormed(s.comments)
  }

  /** No two users share a username or an e-mail: the schema's `unique` indexes. */
  ghost predicate UsersUnique(users: seq<User>)
  {
    forall i, j :: 0 <= i < j < |users| ==>
      users[i].username != users[j].username && users[i].email != users[j].email
  }

  /** Adding a comment under a fresh id raises its post's recount by one and
      leaves every other post's recount alone. */
  lemma CommentCountInsert(cs: map<CommentId, Comment>, id: CommentId, c: Comment, p: PostId)
    requires id !in cs
    ensures CommentCount(cs[id := c], p) == CommentCount(cs, p) + (if c.post == p then 1 else 0)
  {
    if c.post == p {
      assert CommentsOn(cs[id := c], p) == CommentsOn(cs, p) + {id};
    } else {
      assert CommentsOn(cs[id := c], p) == CommentsOn(cs, p);
    }
  }

  /** Replacing a comment by one on the same post changes no recount. */
  lemma CommentCountReplace(cs: map<CommentId, Comment>, id: CommentId, c: Comment, p: PostId)
    requires id in cs && cs[id].post == c.post
    ensures CommentCount(cs[id := c], p) == CommentCount(cs, p)
  {
    assert CommentsOn(cs[id := c], p) == CommentsOn(cs, p);
  }

  /** Removing comments none of which is on `p` leaves the recount of `p` alone. */
  lemma CommentCountRemove(cs: map<CommentId, Comment>, gone: set<CommentId>, p: PostId)
    requires forall x :: x in gone && x in cs ==> cs[x].post != p
    ensures CommentCount(cs - gone, p) == CommentCount(cs, p)
  {
    assert CommentsOn(cs - gone, p) == CommentsOn(cs, p);
  }

  /** A post nothing references has a zero recount. */
  lemma CommentCountNone(cs: map<CommentId, Comment>, p: PostId)
    requires forall x :: x in cs ==> cs[x].post != p
    ensures CommentCount(cs, p) == 0
  {
    assert CommentsOn(cs, p) == {};
  }

  lemma LikeCountAppend(likes: seq<PostLike>, l: PostLike, p: PostId)
    ensures LikeCount(likes + [l], p) == LikeCount(likes, p) + (if l.postId == p then 1 else 0)
  {
    assert (likes + [l])[..|likes|] == likes;
  }

  lemma {:induction false} LikeCountConcat(a: seq<PostLike>, b: seq<PostLike>, p: PostId)
    ensures LikeCount(a + b, p) == LikeCount(a, p) + LikeCount(b, p)
    decreases |b|
  {
    if |b| == 0 {
      assert a + b == a;
    } else {
      var b' := b[..|b| - 1];
      assert a + b == (a + b') + [b[|b| - 1]];
      LikeCountAppend(a + b', b[|b| - 1], p);
      LikeCountConcat(a, b', p);
      assert b == b' + [b[|b| - 1]];
      LikeCountAppend(b', b[|b| - 1], p);
    }
  }

  /** Removing one like lowers the recount of its own post by one and no other. */
  lemma LikeCountRemoveAt(likes: seq<PostLike>, i: nat, p: PostId)
    requires i < |likes|
    ensures LikeCount(RemoveAt(likes, i), p) == LikeCount(likes, p) - (if likes[i].postId == p then 1 else 0)
  {
    assert likes == likes[..i] + ([likes[i]] + likes[i + 1..]);
    LikeCountConcat(likes[..i], [likes[i]] + likes[i + 1..], p);
    LikeCountConcat([likes[i]], likes[i + 1..], p);
    LikeCountConcat(likes[..i], likes[i + 1..], p);
    assert [likes[i]] == [] + [likes[i]];
    LikeCountAppend([], likes[i], p);
  }

  /** A post no like references has a zero recount. */
  lemma {:induction false} LikeCountNone(likes: seq<PostLike>, p: PostId)
    requires forall i :: 0 <= i < |likes| ==> likes[i].postId != p
    ensures LikeCount(likes, p) == 0
  {
    if |likes| > 0 {
      LikeCountNone(likes[..|likes| - 1], p);
    }
  }

  /** Deleting the likes of post `q` leaves every other post's recount alone. */
  lemma {:induction false} LikeCountWithout(likes: seq<PostLike>, q: PostId, p: PostId)
    requires p != q
    ensures LikeCount(LikesWithout(likes, q), p) == LikeCount(likes, p)
  {
    if |likes| > 0 {
      var front := likes[..|likes| - 1];
      var last := likes[|likes| - 1];
      LikeCountWithout(front, q, p);
      if last.postId != q {
        LikeCountAppend(LikesWithout(front, q), last, p);
      }
    }
  }
}

=== FILE: users.dfy ===
/** The user profile handlers: public lookup by username and the biography update. */
module Users {
  import opened Wrappers
  import opened Models
  import opened Seqs
  import opened Store

  const UserMissing: string := "User does not exist"

  /** `getUser`: the first user with that username, without the password. */
  function GetUser(db: Store, username: string): (r: Result<PublicUser>)
    ensures r.Err? <==> forall i :: 0 <= i < |db.users| ==> db.users[i].username != username
    ensures r.Err? ==> r.msg == UserMissing
    ensures r.Ok? ==> exists i :: (0 <= i < |db.users| && db.users[i].username == username &&
      (forall j :: 0 <= j < i ==> db.users[j].username != username) &&
      r.value == Public(db.users[i]))
  {
    match FindFirst(db.users, NameIs(username))
    case None => Err(UserMissing)
    case Some(i) => Ok(Public(db.users[i]))
  }

  function NameIs(username: string): User -> bool
  {
    (u: User) => u.username == username
  }

  /** Two accounts that differ only in their password look the same to
      `getUser`: the password does not leak. */
  lemma GetUserHidesPassword(db: Store, k: nat, password: string, username: string)
    requires k < |db.users|
    ensures GetUser(db.(users := db.users[k := db.users[k].(password := password)]), username) ==
            GetUser(db, username)
  {
    var users' := db.users[k := db.users[k].(password := password)];
    FindFirstSamePositions(users', NameIs(username), db.users, NameIs(username));
    assert Public(users'[k]) == Public(db.users[k]);
  }

  /** `updateUser`: the caller's own account; the biography is replaced only
      when one is given, and the whole account is validated on save. */
  function UpdateUser(db: Store, userId: UserId, biography: Option<string>, isEmail: string -> bool): (r: Reply<()>)
    ensures r.result.Err? ==> r.db == db
    ensures (forall i :: 0 <= i < |db.users| ==> db.users[i].id != userId) ==> r == Reply(Err(UserMissing), db)
    ensures |r.db.users| == |db.users|
    ensures r.result.Ok? <==> exists i :: (0 <= i < |db.users| && db.users[i].id == userId &&
      (forall j :: 0 <= j < i ==> db.users[j].id != userId) &&
      UserValid(db.users[i].(biography := if biography.Some? then biography.value else db.users[i].biography), isEmail))
    ensures r.result.Ok? ==> exists i :: (0 <= i < |db.users| && db.users[i].id == userId &&
      (forall j :: 0 <= j < i ==> db.users[j].id != userId) &&
      UserValid(r.db.users[i], isEmail) &&
      r.db == db.(users := db.users[i := db.users[i].(biography :=
                    if biography.Some? then biography.value else db.users[i].biography)]))
    ensures r.result.Err? && (exists i :: 0 <= i < |db.users| && db.users[i].id == userId) ==>
      r.result.msg == UserValidationFailed
  {
    match FindFirst(db.users, (u: User) => u.id == userId)
    case None => Reply(Err(UserMissing), db)
    case Some(i) =>
      var u := db.users[i];
      var u' := if biography.Some? then u.(biography := biography.value) else u;
      if !UserValid(u', isEmail) then Reply(Err(UserValidationFailed), db)
      else Reply(Ok(()), db.(users := db.users[i := u']))
  }

  /** A biography over 250 UTF-16 code units is refused and changes nothing. */
  lemma LongBiographyRefused(db: Store, userId: UserId, biography: string, isEmail: string -> bool)
    requires JsLength(biography) > BiographyMaxLength
    ensures UpdateUser(db, userId, Some(biography), isEmail).result.Err?
    ensures UpdateUser(db, userId, Some(biography), isEmail).db == db
  {
  }

  /** Updating a biography keeps usernames and e-mails, so it keeps them unique. */
  lemma UpdateUserKeepsUsersUnique(db: Store, userId: UserId, biography: Option<string>, isEmail: string -> bool)
    requires UsersUnique(db.users)
    ensures UsersUnique(UpdateUser(db, userId, biography, isEmail).db.users)
  {
    var r := UpdateUser(db, userId, biography, isEmail);
    assert |r.db.users| == |db.users|;
    assert forall i :: 0 <= i < |db.users| ==>
      r.db.users[i].username == db.users[i].username && r.db.users[i].email == db.users[i].email;
  }

  /** With unique usernames, looking a username up finds exactly the account
      that carries it. */
  lemma GetUserFindsUnique(db: Store, i: nat)
    requires UsersUnique(db.users) && i < |db.users|
    ensures GetUser(db, db.users[i].username) == Ok(Public(db.users[i]))
  {
    var g := GetUser(db, db.users[i].username);
    var k :| 0 <= k < |db.users| && db.users[k].username == db.users[i].username &&
      (forall j :: 0 <= j < k ==> db.users[j].username != db.users[i].username) && g.value == Public(db.users[k]);
    assert k == i;
  }

  /** A profile update touches only the users, so it keeps the store consistent. */
  lemma UpdateUserKeepsConsistent(db: Store, userId: UserId, biography: Option<string>, isEmail: string -> bool)
    requires Consistent(db)
    ensures Consistent(UpdateUser(db, userId, biography, isEmail).db)
  {
  }

  /** Setting a biography and reading the profile back shows the new biography. */
  lemma UpdateThenGet(db: Store, userId: UserId, biography: string, isEmail: string -> bool)
    requires UsersUnique(db.users)
    requires UpdateUser(db, userId, Some(biography), isEmail).result.Ok?
    ensures exists i :: (0 <= i < |db.users| && db.users[i].id == userId &&
      GetUser(UpdateUser(db, userId, Some(biography), isEmail).db, db.users[i].username).Ok? &&
      GetUser(UpdateUser(db, userId, Some(biography), isEmail).db, db.users[i].username).value.biography == biography)
  {
    var r := UpdateUser(db, userId, Some(biography), isEmail);
    var i :| 0 <= i < |db.users| && db.users[i].id == userId &&
      r.db == db.(users := db.users[i := db.users[i].(biography := biography)]);
    UpdateUserKeepsUsersUnique(db, userId, Some(biography), isEmail);
    assert r.db.users[i].username == db.users[i].username;
    GetUserFindsUnique(r.db, i);
  }
}

=== FILE: wrappers.dfy ===
/** Failure-compatible wrappers shared by every handler of the backend. */
module Wrappers {

  /** A value that may be absent: an `undefined` request field, a `findOne` with no match. */
  datatype Option<+T> = None | Some(value: T)

  /** The outcome of a request handler: a value for the JSON body, or the
      `error` message the handler answers with status 400. */
  datatype Result<+T> = Ok(value: T) | Err(msg: string)
}
